=== FILE: README.md ===
# Blog site core: verified accounts, toggles and record builders

A Dafny model of the decision logic inside an Express/Mongoose blog site.
The store, the clock and the random draws become explicit values: the user
collection is a `seq<User>` in natural order (so `findOne` is "first
match"), blogs and categories are maps from id to record, `now` is an
integer number of milliseconds, a verification code is drawn as an integer
in 100000..999999, and a boolean `up` says whether the store's calls
succeed. bcrypt is replaced by `Users.Hash`, an injective stand-in that
never equals its input.

The model has three parts.

- **Accounts** (`Users`, `Store`, `Session`, `Auth`, `Federated`, `Gate`,
  `Lifecycle`, `Profile`). This part covers:
  - The user schema, its setters and the pre-save hash hook.
  - The local strategy and `comparePassword`.
  - Signup, local login, code verification and code resend. Codes expire
    after 10 minutes, with a strict `>` comparison. Resend has a 2-minute
    cooldown reconstructed from the expiry.
  - The Google/Twitter/GitHub find-or-create.
  - Serialize and deserialize.
  - The two "verified" gates.
  - The profile update.

  The `Lifecycle` lemmas chain several requests together. They cover signup
  then login, signup then verify, replaying a verification, and resend
  followed by verify or by another resend.
- **Blog and bookmark data** (`Seqs`, `Blogs`, `Detail`, `Bookmarks`):
  - Tag parsing and the `editor-pick` filter.
  - Create, edit and delete restricted to the author.
  - Adding a comment, and deleting only the caller's own comments.
  - The upvote and like toggles.
  - The bookmark toggle.
  - The blog detail page's visibility rule and view counter.
- **String and record helpers** (`Text`, `Slug`, `Admin`):
  - `slugify`, with its output alphabet, the "no `--`" rule, preservation
    of word characters, and idempotence.
  - The category, admin user-edit and site-settings record builders.

In these places the model follows the code as written:

- Verification with a pending id whose record has vanished replies
  "User not found. Please login again." (`Auth.UserNotFound`), not "session
  expired".
- The `editor-pick` tag is kept only when the role is exactly lower-case
  `'admin'`. The schema's role enum is `Admin`/`Moderator`/`User`, so a user
  holding any role the enum admits loses the tag (`Blogs.FilterEditorPick`,
  last ensures). Only a role of lower-case `'admin'`, which the admin's user
  edit can store because it skips validators (`Admin.AdminEditUser`), keeps it.
- A resend for a record with no stored expiry uses 0 as the issue time. It
  is refused only while `now` is below 2 minutes.
- A route parameter that is not an ObjectId makes `findById` (or
  `findByIdAndUpdate`) throw a CastError, so the route answers from its
  catch branch rather than with "not found" (`Users.Cast`). A valid id is
  cast to its lower-case form before it is compared or stored.
- The routes call `req.logout` with a callback, the passport API that
  regenerates the session on login and logout. A login therefore starts a
  fresh session naming only the record (`Session.LogIn`), and a logout
  leaves one naming nobody (`Session.LoggedOut`).
- Signup looks the address up as typed. Mongoose casts query values through the schema's
  `lowercase` setter, so the lookup is modelled as the lower-cased one (`Store.FindByEmail`).

## Model

| member | source | states |
|---|---|---|
| Users.NewUser | models/User.js:4-22 | a new document has the name trimmed, the email lower-cased, `emailVerified`/code/expiry as given, the default picture when none is given, the one provider id field set, `isAdmin` false, no bookmarks, role 'User' and status 'active' |
| Users.NewUserWellFormed | models/User.js:6-19 | every new record's role and status lie in the schema enums, and its email has no capitals |
| Users.PreSave | models/User.js:24-35 | the hook changes nothing but the password; an absent, empty or unmodified password is left as it is; otherwise it is replaced by a different (hashed) value |
| Users.ComparePassword | models/User.js:37-39 | comparing throws exactly when the record has no password |
| Users.ComparePasswordAfterSave | models/User.js:29-39 | after a save that hashes password `p`, `comparePassword` accepts exactly `p`; an empty `p` is stored unhashed and accepts nothing |
| Users.HashInjective | models/User.js:30 | different passwords never share a stored hash |
| Users.Cast | routes/bookmarks.js:21-36 | a parameter casts iff it is 24 hexadecimal digits (`ObjectId.isValid`); the cast id spells the same digits in lower case and is itself a valid id |
| Users.CastCanonical | models/User.js:14 | an id already written in lower case casts to itself |
| Users.CastIdempotent | models/User.js:14 | casting a cast id changes nothing |
| Store.FindFirst | config/passport.js:11 | `findOne` finds nothing iff no record matches; otherwise it returns a match with no match before it |
| Store.FindByEmail | config/passport.js:11 | the lookup is by the lower-cased address, and finds nothing iff no record has it |
| Store.FindByProvider | config/passport.js:49 | a provider lookup returns the first record carrying that provider id, or nothing iff none does |
| Store.FindByProviderAt | config/passport.js:84 | the record at the first matching position is the one found |
| Store.FindByIdUnique | config/passport.js:35 | with unique ids, `findById` returns exactly the record with that id |
| Store.Insert | routes/auth.js:48 | saving a new document fails iff the store is down or the id is taken; on success the hashed record is appended and ids stay unique |
| Store.Save | config/passport.js:53-56 | saving a loaded record rewrites only the records with its id and keeps ids unique; with its password unchanged it is stored as given |
| Store.SaveAt | routes/auth.js:153-156 | with unique ids and an unchanged password, a save writes the record into its own slot and nowhere else |
| Session.SerializeUser | config/passport.js:28-30 | the session keeps the record's id |
| Session.DeserializeUser | config/passport.js:33-40 | deserializing returns a stored record with that id, or null iff none exists |
| Session.LogIn | routes/auth.js:85-88 | a login yields a fresh session that names exactly the record and holds no pending id |
| Session.LogInRoundTrip | config/passport.js:28-40 | logging a stored record in and resolving the session gives that record back |
| Auth.IssueCode | routes/auth.js:39 | a code is a 6-digit decimal string that parses back to the draw |
| Auth.IssueCodeInjective | routes/auth.js:39 | different draws give different codes |
| Auth.Signup | routes/auth.js:25-66 | mismatched passwords or a taken address create nothing; a user is created iff the store is up, the passwords agree, the address is unused and the id is fresh; the new record is unverified, holds code `n` until now + 600000 ms and accepts exactly the signup password; only the pending id is set |
| Auth.LocalStrategy | config/passport.js:9-25 | empty fields give 'Missing credentials'; 'Email not registered' iff no record has the lower-cased address; 'Password incorrect' iff the found record's hash differs; the result is Authenticated iff both fields are set, the store is up and the found record's hash is that of the password, and then it is exactly the found record; an error iff the store is down or the record has no password |
| Auth.Login | routes/auth.js:73-90 | login never writes; a verified account is logged in and sent to '/'; an unverified one only gets the pending id and goes to /verify-email; a rejection leaves the session and goes to /login; whenever the logged-in id changes it names a verified stored record |
| Auth.PendingUser | routes/auth.js:147 | the pending record is a stored record with the pending id, or none iff there is no pending id or no such record |
| Auth.MarkVerified | routes/auth.js:153-155 | verification sets `emailVerified` and clears code and expiry, touching nothing else |
| Auth.VerifyEmail | routes/auth.js:140-177 | without a pending id nothing changes; a code is accepted iff it equals the stored one and the expiry is strictly later than now; acceptance saves the verified record, clears the pending id and logs in; a rejection changes nothing |
| Auth.Reissue | routes/auth.js:202-204 | a resend changes only code and expiry: the new code is the draw and the expiry is now + 10 minutes |
| Auth.ResendCode | routes/auth.js:180-221 | the session never changes; without a pending id nothing happens; a store failure replies "Failed to resend code. Please try again." and a vanished pending record replies "User not found. Please login again.", both writing nothing; otherwise the record is rewritten iff the cooldown `(expires - 10 min) + 2 min > now` does not hold |
| Auth.RequireVerified | routes/auth.js:8-18 | a verified `req.user` proceeds; for an unverified one the pending id is written and then lost with the logout's regenerated session, so the caller goes to /verify-email with a session naming nobody; no user throws |
| Gate.CheckVerified | middleware/checkVerified.js:3-20 | an unauthenticated request or a store error goes to /login; `next` is called iff the reloaded record exists and is verified; otherwise /verify-email |
| Gate.GateIffVerified | middleware/checkVerified.js:9-14 | with unique ids, a logged-in caller passes iff its stored record is verified |
| Gate.LoginPassesGate | routes/auth.js:80-88 | whoever a local login logs in passes the verified gate: unverified users are never logged in |
| Gate.RequireVerifiedAgrees | routes/auth.js:8-18 | for a caller whose session resolves to a stored record, the route-file helper proceeds iff the middleware gate proceeds, and otherwise leaves a session that names nobody and holds no pending id |
| Federated.ProfileName | config/passport.js:130-131 | the name is `displayName`; GitHub falls back to `username` when `displayName` is absent or empty |
| Federated.ProfileEmail | config/passport.js:128-132 | the first profile email, or '' |
| Federated.ProfilePicture | config/passport.js:60-64 | the first photo, or the default picture |
| Federated.NewFederatedUser | config/passport.js:60-67 | a created federated record is verified, has no password, carries `profile.id` in that provider's field only, and takes the profile's name, email and picture |
| Federated.FederatedLogin | config/passport.js:43-144 | a store error changes nothing; a known provider id logs in that record, verified afterwards, rewriting nothing else; an unknown one appends exactly the new verified record and logs it in |
| Federated.FederatedAlwaysVerified | config/passport.js:53-66 | after any successful provider login, the session names a stored, verified record carrying the provider id, and ids stay unique |
| Federated.FederatedKnownAt | config/passport.js:118-125 | a known record is marked verified in place and is what the lookup finds afterwards |
| Federated.FederatedFindsLoggedIn | config/passport.js:84-103 | after a provider login, the lookup by the same id finds the verified record the session names |
| Federated.FederatedKnownVerified | config/passport.js:51-57 | a login that finds an already verified record writes nothing |
| Federated.FederatedRepeat | config/passport.js:49-69 | a second login with the same profile creates nothing, writes nothing and logs in the same record |
| Federated.FederatedNoLocalPassword | config/passport.js:60-67 | a record created by a provider has no password, so a local login that finds it ends in the strategy's error path |
| Lifecycle.SignupPending | routes/auth.js:39-60 | a successful signup appends one record, keeps ids unique, and makes the pending id name that record |
| Lifecycle.SignupThenLogin | routes/auth.js:76-84 | logging in right after signup only sets the pending id and sends the caller to /verify-email: nobody is logged in |
| Lifecycle.SignupThenVerify | routes/auth.js:152-171 | right after signup, verification succeeds iff the code is the issued one and now < signup time + 10 minutes; the session then names the verified record with its code cleared; a refusal changes nothing |
| Lifecycle.VerifiedIsCurrent | routes/auth.js:153-159 | saving the verified copy and logging in makes it the current user |
| Lifecycle.VerifyOnlyOnce | routes/auth.js:142-167 | after an accepted code, resubmitting is refused as an expired session, and a session naming the same record again changes nothing |
| Lifecycle.VerifyClearsPending | routes/auth.js:152-158 | for a stored pending record, verification clears the pending id iff the code is accepted |
| Lifecycle.ResendChanges | routes/auth.js:192-205 | for a stored pending record, a resend rewrites the collection iff the cooldown has passed |
| Lifecycle.SignupThenResend | routes/auth.js:192-200 | right after signup at `t`, a resend is refused iff now < t + 2 minutes |
| Lifecycle.ResendThenVerify | routes/auth.js:152-205 | after a resend at `t` with draw `m`, verification accepts exactly `m` before t + 10 minutes, and another resend is refused iff now < t + 2 minutes |
| Seqs.Filter | routes/blogs.js:236-238 | the kept elements all pass and come from the input; every passing element is kept; nothing is lost when everything passes |
| Seqs.FilterAppend | routes/blogs.js:236-238 | filtering distributes over concatenation, so kept elements keep their order |
| Seqs.FilterCount | routes/blogs.js:236-238 | each value keeps exactly its passing copies |
| Seqs.RemoveAll | routes/bookmarks.js:32 | removing a value leaves none of it and nothing else |
| Seqs.RemoveAllCount | routes/blogs.js:264 | removal keeps the count of every other value |
| Seqs.RemoveAllNoDup | routes/blogs.js:264 | removal keeps a duplicate-free list duplicate-free |
| Seqs.FindIndex | routes/blogs.js:383 | `findIndex` is -1 iff nothing matches; otherwise it is the first matching position |
| Seqs.RemoveAt | routes/blogs.js:387 | `splice(i, 1)` drops exactly position `i` |
| Seqs.RemoveAtCount | routes/blogs.js:387 | a splice lowers the removed value's count by one and keeps every other count |
| Seqs.ToggleAll | routes/bookmarks.js:30-38 | membership flips; when present every copy is removed, otherwise the value is appended |
| Seqs.ToggleFirst | routes/blogs.js:383-392 | membership-by-index toggle: when present the first copy is spliced out and the rest keep their order, otherwise the value is appended |
| Seqs.TogglesKeepOthers | routes/blogs.js:260-267 | both toggles keep the count of every other value |
| Seqs.ToggleFirstIsToggleAll | routes/blogs.js:383-392 | on a duplicate-free list, removing the first copy equals removing all copies |
| Seqs.ToggleFirstNoDup | routes/blogs.js:383-392 | the like toggle keeps a duplicate-free list duplicate-free |
| Seqs.ToggleTwiceAbsent | routes/bookmarks.js:30-38 | toggling an absent value twice restores the list |
| Text.LowerStr | routes/admin.js:28 | lower-casing keeps the length, maps each character, and leaves no capitals |
| Text.Trim | routes/admin.js:29 | trimming gives a trimmed string that is a slice of the input with only white space cut off either end |
| Text.TrimIdempotent | routes/blogs.js:124 | trimming twice is trimming once |
| Text.Split | routes/blogs.js:124 | `split` gives at least one piece and no piece holds the separator |
| Text.JoinSplit | routes/blogs.js:124 | joining the pieces of a split gives back the string |
| Text.SplitJoin | routes/blogs.js:124 | splitting a join of separator-free pieces gives back the pieces |
| Text.DecimalRoundTrip | routes/auth.js:39 | `toString` of a number parses back to it |
| Blogs.NormaliseTag | routes/blogs.js:124 | a tag's normal form is its trimmed text in lower case: trimmed, without capitals, no longer than its input, and gaining no comma |
| Blogs.NormaliseTagFixes | routes/blogs.js:124 | a tag in normal form is its own normal form |
| Blogs.ParseTags | routes/blogs.js:123-125 | absent or empty tags give []; otherwise the i-th tag is the normal form of the i-th comma-separated piece, empty pieces included |
| Blogs.ParseTagsJoin | routes/blogs.js:170-172 | joining normal tags with commas and parsing gives them back |
| Blogs.FilterEditorPick | routes/blogs.js:127-129 | for role 'admin' the tags are kept; otherwise every 'editor-pick' is dropped and all other tags keep their multiplicity; for every schema role the tag is dropped |
| Blogs.CategoryCast | models/Blog.js:8 | an absent category stays absent; a present one is accepted iff it is an ObjectId, and is then stored as its lower-case cast |
| Blogs.CreateBlog | routes/blogs.js:120-152 | a taken id, an empty title or a category that is no ObjectId gives "Error creating blog" and stores nothing; otherwise a create adds exactly one blog by the caller with the submitted title, description and content, the category in its cast form (absent when none was sent), zero views, no comments or likes, `published` iff the field is 'true', the filtered tags, and the uploaded cover or one of the four defaults; other blogs are unchanged |
| Blogs.EditBlog | routes/blogs.js:155-189 | a parameter that is no ObjectId gives "Error updating blog", a missing blog "Blog not found", a non-author "Not authorized", and, for the author, an empty title or a category that is no ObjectId "Error updating blog", all changing nothing; otherwise the author's edit overwrites title, description and content, stores the category in its cast form, sets `published` iff 'true', stores the filtered tags, replaces the cover only on upload, and keeps id, author, views, comments and likes |
| Blogs.DeleteBlog | routes/blogs.js:192-207 | a parameter that is no ObjectId gives "Error deleting blog", a missing blog "Blog not found", a non-author "Not authorized", all changing nothing; the author's delete removes exactly that blog |
| Blogs.OnlyAuthorWrites | routes/blogs.js:159-162 | edit and delete change the collection only for the blog's author |
| Blogs.CreateThenDelete | routes/blogs.js:120-207 | a create stores a blog of the caller's iff the form passes the schema, and its author deleting it through the new id restores the collection |
| Blogs.AddComment | routes/blogs.js:210-228 | a parameter that is no ObjectId gives "Error posting comment" and a missing blog a 404, changing nothing; otherwise exactly one comment with the caller's id and name and the text is appended to that blog, everything else is unchanged, and the caller goes to the stored blog's page |
| Blogs.DeleteComment | routes/blogs.js:230-247 | a parameter that is no ObjectId gives "Error deleting comment" and a missing blog a 404, changing nothing; otherwise exactly the comments that are not (that id and the caller's) are kept, and for a non-owner nothing changes |
| Blogs.AddThenDeleteComment | routes/blogs.js:210-247 | deleting the comment just posted, by its fresh id, restores the collection |
| Blogs.CommentIndex | routes/blogs.js:256 | `comments.id(x)` is the first comment with id `x`, or none iff there is none |
| Blogs.CommentIndexIds | routes/blogs.js:256 | the comment lookup depends only on comment ids |
| Blogs.FindComment | routes/blogs.js:256-257 | `comments.id(x)` casts `x` first: no comment matches a parameter that does not cast; otherwise it is the first comment whose id is the cast id |
| Blogs.ToggleUpvote | routes/blogs.js:251-276 | a blog parameter that is no ObjectId is a 500 "Error upvoting comment", a missing blog or comment a 404, changing nothing; otherwise the toggle flips the caller's membership in the first matching comment, removing every copy, keeps other values' counts, and touches no other comment or blog |
| Blogs.UpvoteTwice | routes/blogs.js:260-270 | upvoting twice from a state without the caller's upvote restores the blogs |
| Blogs.ToggleLike | routes/blogs.js:375-418 | the like toggle splices out the first copy of the caller's id when present and appends it otherwise; the JSON reports `liked` and the new count; a parameter that is no ObjectId reports the CastError's message and a missing blog 'Blog not found', both as a 500 changing nothing |
| Blogs.LikeReportsMembership | routes/blogs.js:383-401 | on duplicate-free likes, `liked` equals the caller's new membership and the count moves by one; likes stay duplicate-free |
| Blogs.LikeTwice | routes/blogs.js:383-394 | liking twice from a state without the caller's like restores the blogs |
| Detail.ViewBlog | server.js:224-247 | a parameter that is no ObjectId is a 500 and a missing blog a 404, with nothing changed; a render happens iff the blog is published or the caller is its (existing) author, and it adds exactly one view; an unpublished blog is a 403 for others, or a 500 when its author record is gone |
| Detail.ViewIffVisible | server.js:234-236 | with the author stored, the page renders iff the blog is published or the caller is its author |
| Detail.ViewsCount | server.js:238 | `k` successful views of a published blog add exactly `k` to its counter |
| Bookmarks.EnsureAuthenticated | routes/bookmarks.js:7-14 | a logged-in caller proceeds; otherwise a 401 JSON for XMLHttpRequest, a redirect to /login for anything else |
| Bookmarks.GuardsAgree | routes/bookmarks.js:7-14 | every caller the verified-email gate admits passes the bookmark guard, which admits exactly the sessions that resolve to a stored record |
| Bookmarks.ToggleBookmark | routes/bookmarks.js:17-56 | unauthenticated or invalid-id requests change nothing; a store error is a 500; otherwise only the caller's record changes, its bookmarks updated, and the reply reports whether the id as written was absent |
| Bookmarks.BookmarkToggle | routes/bookmarks.js:30-38 | an id found as written loses every copy; otherwise its lower-case cast form is appended; every other bookmark keeps its count |
| Bookmarks.BookmarkToggleLower | routes/bookmarks.js:30-38 | for an id written in lower case the update is the plain toggle |
| Bookmarks.BookmarkEffect | routes/bookmarks.js:30-44 | a bookmarked id loses every copy and reports false; a new id is appended at the end in its cast form and reports true; every other bookmark keeps its count |
| Bookmarks.ToggleBookmarkAt | routes/bookmarks.js:27-40 | one toggle rewrites exactly the caller's record |
| Bookmarks.BookmarkTwice | routes/bookmarks.js:30-40 | toggling a lower-case id that is not bookmarked twice restores the user collection |
| Bookmarks.BookmarkUpperCase | routes/bookmarks.js:30-37 | an id with upper-case digits is never found once stored: two toggles append its cast form twice and both report true |
| Slug.Slugify | routes/admin.js:27-33 | a slug has only lower-case letters, digits, '_' and '-', no white space, and never two hyphens in a row |
| Slug.SlugifyKeepsWordChars | routes/admin.js:27-33 | slugifying keeps the word characters of the lower-cased input, in order |
| Slug.SlugifyFixesSlugs | routes/admin.js:27-33 | a well-formed slug is its own slug |
| Slug.SlugifyIdempotent | routes/admin.js:27-33 | `slugify(slugify(x)) == slugify(x)` |
| Slug.WordCharsTrim | routes/admin.js:29 | trimming keeps every word character |
| Slug.DashSpaces | routes/admin.js:30 | after the whitespace replacement no white space is left and every character is '-' or from the input |
| Slug.DashSpacesWordChars | routes/admin.js:30 | the whitespace replacement keeps the word characters |
| Slug.DashSpacesFixes | routes/admin.js:30 | a string without white space is unchanged |
| Slug.KeepSlugChars | routes/admin.js:31 | after the filter only word characters and '-' remain, all from the input |
| Slug.KeepSlugCharsWordChars | routes/admin.js:31 | the filter keeps the word characters |
| Slug.KeepSlugCharsFixes | routes/admin.js:31 | a string of word characters and hyphens is unchanged |
| Slug.CollapseHyphens | routes/admin.js:32 | after the collapse no two hyphens are adjacent, every character is from the input, and the first character is kept |
| Slug.CollapseHyphensWordChars | routes/admin.js:32 | the collapse keeps the word characters |
| Slug.CollapseHyphensFixes | routes/admin.js:32 | a string without "--" is unchanged |
| Admin.NewCategory | routes/admin.js:159-163 | a new category has the trimmed name, the slug of that name, and the uploaded image or the default one |
| Admin.AddCategory | routes/admin.js:157-173 | with a name and the store up, exactly one well-formed category is added and the others are unchanged; otherwise nothing changes and the failure notice is shown |
| Admin.Renamed | routes/admin.js:188-193 | a renamed category gets the trimmed name and its slug, and a new image only on upload |
| Admin.EditCategory | routes/admin.js:186-207 | an absent name, a parameter that is no ObjectId or a store error gives the failure notice and changes nothing; otherwise only the named category is rewritten: trimmed name, its slug, the image only on upload; an unknown id changes nothing and still reports success |
| Admin.CategoriesStayWellFormed | routes/admin.js:159-160 | both category routes keep every category's slug equal to the slug of its trimmed name |
| Admin.EditCategoryIdempotent | routes/admin.js:188-194 | re-submitting a category's own name without a file leaves the categories unchanged |
| Admin.AdminEditUser | routes/admin.js:105-125 | a parameter that is no ObjectId or a store error gives 'Failed to update user' and changes nothing; otherwise only the record with that id is rewritten: name trimmed, email lower-cased, role and status as submitted, `isAdmin` iff the checkbox is 'on', nothing else; an unknown id still reports success |
| Admin.AdminEditKeepsPasswords | routes/admin.js:107-113 | the admin's edit never touches id, password, verification or bookmarks |
| Admin.UpdateSettings | routes/admin.js:242-262 | the save fails iff the store is down or the role is outside the enum, and then nothing is stored; otherwise the text fields are overwritten, `allowRegistration` iff 'on', and the logo is replaced only on upload |
| Admin.SettingsRoleValid | routes/admin.js:253-259 | stored settings always hold a role the enum admits, or none |
| Profile.Apply | routes/profile.js:29-40 | the update overwrites name and email, sets the password only when a non-empty one is submitted, and the picture only on upload |
| Profile.UpdateById | routes/profile.js:42 | only the caller's record is rewritten |
| Profile.UpdateProfile | routes/profile.js:27-50 | the route as written: a store error changes nothing; otherwise only the caller's record changes, with the submitted password stored as typed |
| Profile.UpdateProfileHashed | routes/profile.js:27-50 | the corrected route: the same update with the submitted password stored as its hash |
| Profile.ProfilePasswordLocksOut | routes/profile.js:33-42 | as written, a local login with the address and password just submitted is refused with 'Password incorrect' |
| Profile.ProfileHashedLogin | routes/profile.js:33-42 | with the password hashed, the address and password just submitted log the caller in |

## Findings

| source | as written | input that shows it | evidently intended | confidence | as-written member | corrected member |
|---|---|---|---|---|---|---|
| routes/profile.js:33-42 | the new password goes through `findByIdAndUpdate`, which skips the pre-save hook, so it is stored as typed | a stored user changes its password to "pw2" and then logs in locally with its address and "pw2": `comparePassword` checks the hash of "pw2" against the raw "pw2" and fails | the password is hashed as on every other write, so the new password works | not executed | Profile.UpdateProfile, Profile.ProfilePasswordLocksOut | Profile.UpdateProfileHashed, Profile.ProfileHashedLogin |

## Left out

- The Mongo query and aggregation features are left out: latest, popular and random lists, regex search, and the admin user search. They belong to the database.
- The user schema's `required` and `unique` validators are left out, and so are the races between concurrent signups or federated creations. A store insert only fails on a duplicate id or when the store is down.
- bcrypt internals (salt, cost) are left out. `Hash` is a deterministic injective stand-in.
- `Math.random` and `Date.now` are parameters: the draw as an integer in 100000..999999, the cover index as `pick`, and `now` in milliseconds.
- Email sending, multer storage and file names, markdown and EJS rendering, the flash/cookie transport and passport's OAuth handshakes are left out. An uploaded file is its stored name. Flash messages are part of the reply.
- Auth.RequireVerified: the helper is mounted on no route, and the pending id it writes is lost when `req.logout` regenerates the session. The model states that loss rather than a pending id the program never keeps.
- Store failures in the blog, comment and like routes are left out. Those routes are modelled with the store up.
- The unauthenticated path of the like route is left out. It has no guard and throws, so only the authenticated toggle is modelled.
- `ObjectId.isValid` and the id cast are modelled only on the 24-hexadecimal-digit form. The 12-character string form is not modelled.
- Users.CastErrorMessage: the like route reports the CastError's own message. Its wording is Mongoose's, not the repository's, and is modelled as Mongoose words it.
- Unicode case-folding and Unicode white space are left out. `toLowerCase`, `trim` and `\s` are modelled on ASCII letters and the ASCII white-space characters.
- middleware/ensureAdmin.js and models/Category.js are not part of this model. The admin routes are modelled as already admitted.
- The AI endpoints, browser scripts, seed scripts, the one-line `ensureAuth` and the log schema are left out. Of models/Blog.js the model uses the required title, the cast of `category`, and the cast of the id parameters; `author`, `likes` and `upvotes` are written from `req.user._id`, already an ObjectId, so their casts change nothing. Of models/Setting.js only the role enum and the defaults are used.
- Blogs.DeleteComment: states which comments are kept, not their order. Order preservation is stated for the underlying filter by Seqs.FilterAppend.
- Store.Save: Mongoose's `save()` re-validates every path of a loaded record, so a record whose `role` or `status` lies outside the schema enums (which only `Admin.AdminEditUser` can store) is rejected with a ValidationError and the route takes its catch branch. The model does not run that enum validation: such a save writes the record. This affects the verification and resend saves (routes/auth.js:156, 205), the federated saves (config/passport.js:55, 89, 123) and the bookmark save (routes/bookmarks.js:40).
- Admin.AdminEditUser: validators are not run, so `role` and `status` are stored as submitted, including values outside the enums. This is deliberately not constrained.
- Bookmarks.BookmarkTwice: stated only for ids written in lower case. An id with upper-case digits is stored in lower case and never found again, so two toggles append it twice (Bookmarks.BookmarkUpperCase).

=== FILE: admin.dfy ===
/**
 * The record builders of routes/admin.js: adding and editing a category
 * (name trimmed, slug derived from it), the admin's edit of a user, and the
 * site settings form. Each route runs behind `ensureAdmin`, which is not
 * part of this model; `up` says whether the store's calls succeed.
 */
module Admin {
  import opened Wrappers
  import opened Users
  import opened Store
  import opened Http
  import opened Slug
  import Text
  import Seqs

  function Notice(kind: FlashKind, to: string, text: string): Reply {
    Redirect(to, Some(Flash(kind, text)))
  }

  // ===== Categories =====

  datatype Category = Category(id: Id, name: string, slug: string, image: string)

  const DefaultCategoryImage := "/images/default-category.png"

  function CategoryImage(file: string): string { "/uploads/categories/" + file }

  /** The category invariant: a trimmed name and the slug of that name. */
  predicate WellFormed(c: Category) {
    Text.Trimmed(c.name) && c.slug == Slugify(c.name)
  }

  /** The category a form with this name and upload describes. */
  function NewCategory(id: Id, name: string, upload: Option<string>): (c: Category)
    ensures c.id == id && c.name == Text.Trim(name) && WellFormed(c) && IsSlug(c.slug)
    ensures c.image == if upload.Some? then CategoryImage(upload.value) else DefaultCategoryImage
  {
    var n := Text.Trim(name);
    Category(id, n, Slugify(n), if upload.Some? then CategoryImage(upload.value) else DefaultCategoryImage)
  }

  /** An existing category renamed: a new name and slug, the image only when one was uploaded. */
  function Renamed(c: Category, name: string, upload: Option<string>): (c': Category)
    ensures c'.id == c.id && c'.name == Text.Trim(name) && WellFormed(c') && IsSlug(c'.slug)
    ensures c'.image == if upload.Some? then CategoryImage(upload.value) else c.image
  {
    var n := Text.Trim(name);
    c.(name := n, slug := Slugify(n), image := if upload.Some? then CategoryImage(upload.value) else c.image)
  }

  datatype CategoryStep = CategoryStep(categories: map<Id, Category>, reply: Reply)

  const CategoriesPage := "/admin/categories"

  /**
   * `POST /admin/categories/add`. `name` is `req.body.name` (trimming an
   * absent one throws); `upload` is the stored file name, if any.
   */
  function AddCategory(cats: map<Id, Category>, name: Option<string>, upload: Option<string>, newId: Id, up: bool): (r: CategoryStep)
    ensures name.None? || !up || newId in cats ==>
              r == CategoryStep(cats, Notice(ErrorFlash, CategoriesPage, "Failed to add category"))
    ensures name.Some? && up && newId !in cats ==>
              && r.categories.Keys == cats.Keys + {newId}
              && (forall k | k in cats :: r.categories[k] == cats[k])
              && var c := r.categories[newId];
              && c.id == newId && c.name == Text.Trim(name.value) && WellFormed(c) && IsSlug(c.slug)
              && c.image == (if upload.Some? then CategoryImage(upload.value) else DefaultCategoryImage)
              && r.reply == Notice(SuccessFlash, CategoriesPage, "Category added successfully")
  {
    if name.None? || !up || newId in cats then
      CategoryStep(cats, Notice(ErrorFlash, CategoriesPage, "Failed to add category"))
    else
      CategoryStep(cats[newId := NewCategory(newId, name.value, upload)],
                   Notice(SuccessFlash, CategoriesPage, "Category added successfully"))
  }

  /**
   * `POST /admin/categories/:id/edit`: name and slug always rewritten, the
   * image only when a file came with the form. An unknown id updates
   * nothing and still reports success; an absent name, a parameter that is
   * no ObjectId, or a store failure lands in the catch.
   */
  function EditCategory(cats: map<Id, Category>, id: string, name: Option<string>, upload: Option<string>, up: bool): (r: CategoryStep)
    ensures name.None? || Cast(id).None? || !up ==>
              r == CategoryStep(cats, Notice(ErrorFlash, CategoriesPage, "Failed to update category"))
    ensures name.Some? && Cast(id).Some? && up ==> r.reply == Notice(SuccessFlash, CategoriesPage, "Category updated successfully")
    ensures r.categories.Keys == cats.Keys
    ensures forall k | k in cats && Cast(id) != Some(k) :: r.categories[k] == cats[k]
    ensures name.Some? && Cast(id).Some? && up && Cast(id).value in cats ==>
              var (c, c') := (cats[Cast(id).value], r.categories[Cast(id).value]);
              && c'.id == c.id && c'.name == Text.Trim(name.value) && WellFormed(c') && IsSlug(c'.slug)
              && c'.image == (if upload.Some? then CategoryImage(upload.value) else c.image)
  {
    if name.None? || Cast(id).None? || !up then
      CategoryStep(cats, Notice(ErrorFlash, CategoriesPage, "Failed to update category"))
    else
      var key := Cast(id).value;
      var cats' := if key in cats then cats[key := Renamed(cats[key], name.value, upload)] else cats;
      CategoryStep(cats', Notice(SuccessFlash, CategoriesPage, "Category updated successfully"))
  }

  /** Both category routes keep every category well formed. */
  lemma {:induction false} CategoriesStayWellFormed(cats: map<Id, Category>, newId: Id, id: string, name: Option<string>, upload: Option<string>, up: bool)
    requires forall k | k in cats :: WellFormed(cats[k])
    ensures var r := AddCategory(cats, name, upload, newId, up).categories; forall k | k in r :: WellFormed(r[k])
    ensures var r := EditCategory(cats, id, name, upload, up).categories; forall k | k in r :: WellFormed(r[k])
  {
    var a := AddCategory(cats, name, upload, newId, up).categories;
    forall k | k in a ensures WellFormed(a[k]) {
      if k != newId || a == cats {
        assert a[k] == cats[k];
      }
    }
    var e := EditCategory(cats, id, name, upload, up).categories;
    forall k | k in e ensures WellFormed(e[k]) {
      if Cast(id) != Some(k) || e == cats {
        assert e[k] == cats[k];
      }
    }
  }

  /** The collection after a successful edit of a stored category. */
  lemma EditCategoryAt(cats: map<Id, Category>, id: string, name: string, upload: Option<string>)
    requires Cast(id).Some? && Cast(id).value in cats
    ensures var key := Cast(id).value;
      EditCategory(cats, id, Some(name), upload, true).categories == cats[key := Renamed(cats[key], name, upload)]
  {
  }

  /** Re-submitting a category's own name and no file leaves it as it is. */
  lemma {:induction false} EditCategoryIdempotent(cats: map<Id, Category>, id: string)
    requires Cast(id).Some? && Cast(id).value in cats && WellFormed(cats[Cast(id).value])
    ensures EditCategory(cats, id, Some(cats[Cast(id).value].name), None, true).categories == cats
  {
    var key := Cast(id).value;
    var c := cats[key];
    EditCategoryAt(cats, id, c.name, None);
    assert Renamed(c, c.name, None) == c by {
      Text.TrimOfTrimmed(c.name);
    }
    Seqs.MapSame(cats, key);
  }

  // ===== Users =====

  /** The fields of the admin's user edit form. */
  datatype UserForm = UserForm(name: string, email: string, role: string, status: string, isAdmin: Option<string>)

  datatype UserEditStep = UserEditStep(users: seq<User>, reply: Reply)

  const UsersPage := "/admin/users"

  /**
   * `POST /admin/users/:id/edit`: `findByIdAndUpdate` with the schema's
   * setters but without its validators, so `role` and `status` are stored
   * as submitted, and without the pre-save hook. The admin flag is set
   * exactly when the checkbox sent 'on'. An unknown id updates nothing and
   * still reports success; a parameter that is no ObjectId or a store
   * failure lands in the catch.
   */
  function AdminEditUser(users: seq<User>, id: string, form: UserForm, up: bool): (r: UserEditStep)
    ensures Cast(id).None? || !up ==> r == UserEditStep(users, Notice(ErrorFlash, UsersPage, "Failed to update user"))
    ensures Cast(id).Some? && up ==> r.reply == Notice(SuccessFlash, UsersPage, "User updated successfully")
    ensures |r.users| == |users|
    ensures Cast(id).Some? && FindById(users, Cast(id).value).None? ==> r.users == users
    ensures forall i | 0 <= i < |users| && Cast(id) != Some(users[i].id) :: r.users[i] == users[i]
    ensures Cast(id).Some? && up ==> forall i | 0 <= i < |users| && users[i].id == Cast(id).value ::
              var (u, u') := (users[i], r.users[i]);
              && u'.name == Text.Trim(form.name) && u'.email == Text.LowerStr(form.email)
              && u'.role == form.role && u'.status == form.status
              && (u'.isAdmin <==> form.isAdmin == Some("on"))
              && u' == u.(name := u'.name, email := u'.email, role := u'.role, status := u'.status, isAdmin := u'.isAdmin)
  {
    if Cast(id).None? || !up then UserEditStep(users, Notice(ErrorFlash, UsersPage, "Failed to update user"))
    else
      var key := Cast(id).value;
      var users' := seq(|users|, i requires 0 <= i < |users| =>
        if users[i].id == key then
          users[i].(name := Text.Trim(form.name), email := Text.LowerStr(form.email),
                    role := form.role, status := form.status, isAdmin := form.isAdmin == Some("on"))
        else users[i]);
      UserEditStep(users', Notice(SuccessFlash, UsersPage, "User updated successfully"))
  }

  /** The admin's edit never touches a password, so local login keeps working the same way. */
  lemma {:induction false} AdminEditKeepsPasswords(users: seq<User>, id: string, form: UserForm, up: bool)
    ensures forall i | 0 <= i < |users| ::
      var u' := AdminEditUser(users, id, form, up).users[i];
      && u'.id == users[i].id && u'.password == users[i].password
      && u'.emailVerified == users[i].emailVerified && u'.bookmarks == users[i].bookmarks
  {
  }

  // ===== Site settings =====

  /** The roles the settings schema admits for `defaultUserRole`. */
  const SettingRoles: set<string> := {"User", "Moderator", "Admin"}

  datatype Settings = Settings(
    siteTitle: Option<string>,
    siteDescription: Option<string>,
    logoUrl: Option<string>,
    contactEmail: Option<string>,
    googleAnalyticsID: Option<string>,
    allowRegistration: bool,
    defaultUserRole: Option<string>)

  /** `new Setting()`: registration allowed, new users get the 'User' role. */
  const DefaultSettings := Settings(None, None, None, None, None, true, Some("User"))

  /** The fields of the settings form. */
  datatype SettingsForm = SettingsForm(
    siteTitle: Option<string>,
    siteDescription: Option<string>,
    contactEmail: Option<string>,
    googleAnalyticsID: Option<string>,
    allowRegistration: Option<string>,
    defaultUserRole: Option<string>)

  datatype SettingsStep = SettingsStep(settings: Option<Settings>, reply: Reply)

  /**
   * `POST /admin/site-settings`: loads the one settings document (or starts
   * from the defaults), overwrites the text fields and the flags, replaces
   * the logo only when a file came with the form, and saves. The save
   * validates the role enum; the route has no catch, so a rejected save
   * (or a store failure) ends in an error and stores nothing.
   */
  function UpdateSettings(existing: Option<Settings>, form: SettingsForm, upload: Option<string>, up: bool): (r: SettingsStep)
    ensures r.reply == Fail <==> !up || (form.defaultUserRole.Some? && form.defaultUserRole.value !in SettingRoles)
    ensures r.reply == Fail ==> r.settings == existing
    ensures r.reply != Fail ==>
              && r.reply == Notice(SuccessFlash, "/admin/site-settings", "Site settings updated successfully.")
              && r.settings.Some?
              && var s := r.settings.value;
              && s.siteTitle == form.siteTitle && s.siteDescription == form.siteDescription
              && s.contactEmail == form.contactEmail && s.googleAnalyticsID == form.googleAnalyticsID
              && (s.allowRegistration <==> form.allowRegistration == Some("on"))
              && s.defaultUserRole == form.defaultUserRole
              && s.logoUrl == (if upload.Some? then Some("/uploads/settings/" + upload.value)
                               else existing.GetOr(DefaultSettings).logoUrl)
  {
    var base := existing.GetOr(DefaultSettings);
    var s := base.(siteTitle := form.siteTitle, siteDescription := form.siteDescription,
                   contactEmail := form.contactEmail, googleAnalyticsID := form.googleAnalyticsID,
                   allowRegistration := form.allowRegistration == Some("on"),
                   defaultUserRole := form.defaultUserRole,
                   logoUrl := if upload.Some? then Some("/uploads/settings/" + upload.value) else base.logoUrl);
    if !up || (s.defaultUserRole.Some? && s.defaultUserRole.value !in SettingRoles) then SettingsStep(existing, Fail)
    else SettingsStep(Some(s), Notice(SuccessFlash, "/admin/site-settings", "Site settings updated successfully."))
  }

  /** Saved settings always hold a role the schema admits, or none. */
  lemma {:induction false} SettingsRoleValid(existing: Option<Settings>, form: SettingsForm, upload: Option<string>, up: bool)
    requires existing.Some? ==> existing.value.defaultUserRole.None? || existing.value.defaultUserRole.value in SettingRoles
    ensures var r := UpdateSettings(existing, form, upload, up).settings;
      r.Some? ==> r.value.defaultUserRole.None? || r.value.defaultUserRole.value in SettingRoles
  {
  }
}

=== FILE: auth.dfy ===
/**
 * The email-verification lifecycle of routes/auth.js together with the local
 * strategy of config/passport.js: signup, local login, code verification and
 * code resend. The clock (`Date.now()`) and the random draw behind each code
 * are parameters; `up` says whether the store's calls succeed.
 */
module Auth {
  import opened Wrappers
  import opened Users
  import opened Store
  import opened Session
  import opened Http
  import Text

  /** A verification code lives 10 minutes. */
  const CodeLifetimeMs := 10 * 60 * 1000

  /** A new code may be requested 2 minutes after the previous one was issued. */
  const ResendCooldownMs := 2 * 60 * 1000

  /** A route's effect: the user collection and session after it, and its reply. */
  datatype Step = Step(users: seq<User>, session: Ctx, reply: Reply)

  function ErrorTo(to: string, text: string): Reply {
    Redirect(to, Some(Flash(ErrorFlash, text)))
  }

  const SessionExpired := ErrorTo("/login", "Session expired. Please login again.")
  const UserNotFound := ErrorTo("/login", "User not found. Please login again.")

  /**
   * `Math.floor(100000 + Math.random() * 900000).toString()`, given the
   * integer the draw produced: a six-digit decimal string naming `n`.
   */
  function IssueCode(n: int): (code: string)
    requires 100000 <= n <= 999999
    ensures |code| == 6 && Text.AllDigits(code)
    ensures Text.ParseDecimal(code) == n
  {
    assert Text.Pow10(5) == 100000 && Text.Pow10(6) == 1000000;
    Text.DecimalLength(n, 6);
    Text.DecimalRoundTrip(n);
    Text.Decimal(n)
  }

  /** Different draws give different codes. */
  lemma IssueCodeInjective(m: int, n: int)
    requires 100000 <= m <= 999999 && 100000 <= n <= 999999
    requires IssueCode(m) == IssueCode(n)
    ensures m == n
  {
  }

  // ===== Signup =====

  datatype SignupForm = SignupForm(name: string, email: string, password: string, confirmPassword: string)

  /** The document `POST /signup` builds. */
  function SignupFields(f: SignupForm, code: string, now: int): Fields {
    Fields(f.name, f.email, Some(f.password), None, None, false, Some(code), Some(now + CodeLifetimeMs))
  }

  /**
   * The record a successful signup leaves in the store: unverified, holding
   * code `n` until `now` + 10 minutes, and accepting exactly the signup
   * password (none at all when it was empty).
   */
  ghost predicate SignedUp(u: User, id: Id, f: SignupForm, now: int, n: int)
    requires 100000 <= n <= 999999
  {
    && u.id == id
    && u.email == Text.LowerStr(f.email)
    && !u.emailVerified
    && u.verificationCode == Some(IssueCode(n))
    && u.verificationCodeExpires == Some(now + CodeLifetimeMs)
    && forall x :: ComparePassword(u, x) == Some(f.password != "" && x == f.password)
  }

  /** The pending-signup condition: the passwords agree and the address is unused. */
  predicate SignupAdmitted(s: seq<User>, f: SignupForm) {
    f.password == f.confirmPassword && FindByEmail(s, f.email).None?
  }

  /** `POST /signup`. */
  function Signup(s: seq<User>, c: Ctx, f: SignupForm, now: int, n: int, newId: Id, up: bool): (r: Step)
    requires 100000 <= n <= 999999
    ensures f.password != f.confirmPassword ==> r == Step(s, c, ErrorTo("/signup", "Passwords do not match"))
    ensures f.password == f.confirmPassword && up && FindByEmail(s, f.email).Some? ==>
              r == Step(s, c, ErrorTo("/signup", "Email already registered"))
    ensures |r.users| == |s| + 1 <==> up && SignupAdmitted(s, f) && FindById(s, newId).None?
    ensures |r.users| != |s| + 1 ==> r.users == s && r.session == c
    ensures |r.users| == |s| + 1 ==>
              && r.users[..|s|] == s
              && SignedUp(r.users[|s|], newId, f, now, n)
              && r.session == c.(pending := Some(newId))
              && r.reply.Redirect? && r.reply.to == "/verify-email"
  {
    if f.password != f.confirmPassword then Step(s, c, ErrorTo("/signup", "Passwords do not match"))
    else if up && FindByEmail(s, f.email).Some? then Step(s, c, ErrorTo("/signup", "Email already registered"))
    else
      var u := NewUser(newId, SignupFields(f, IssueCode(n), now));
      match Insert(s, u, up)
      case Failure(_) => Step(s, c, ErrorTo("/signup", "Something went wrong. Please try again."))
      case Success(s') =>
        assert s'[..|s|] == s;
        forall x ensures ComparePassword(s'[|s|], x) == Some(f.password != "" && x == f.password) {
          ComparePasswordAfterSave(u, f.password, x);
        }
        Step(s', c.(pending := Some(newId)),
             Redirect("/verify-email", Some(Flash(SuccessFlash, "Registered! Please verify your email."))))
  }

  // ===== Local login =====

  /** The outcome of the local strategy's `done(err, user, info)`. */
  datatype Verdict = Authenticated(user: User) | Rejected(message: string) | Errored

  /**
   * The local strategy: passport-local's missing-field check, then lookup by
   * the lower-cased address, then `comparePassword`.
   */
  function LocalStrategy(s: seq<User>, email: string, password: string, up: bool): (r: Verdict)
    ensures email == "" || password == "" ==> r == Rejected("Missing credentials")
    ensures r.Authenticated? <==>
              email != "" && password != "" && up && FindByEmail(s, email).Some?
              && FindByEmail(s, email).value.password == Some(Hash(password))
    ensures r.Authenticated? ==>
              && r.user in s
              && r.user.email == Text.LowerStr(email)
              && r.user.password == Some(Hash(password))
              && r.user == FindByEmail(s, email).value
    ensures r == Rejected("Email not registered") <==>
              email != "" && password != "" && up && forall i | 0 <= i < |s| :: s[i].email != Text.LowerStr(email)
    ensures r == Rejected("Password incorrect") <==>
              email != "" && password != "" && up && FindByEmail(s, email).Some?
              && FindByEmail(s, email).value.password.Some?
              && FindByEmail(s, email).value.password != Some(Hash(password))
    ensures r.Errored? <==>
              email != "" && password != "" && (!up || (FindByEmail(s, email).Some? && FindByEmail(s, email).value.password.None?))
  {
    if email == "" || password == "" then Rejected("Missing credentials")
    else if !up then Errored
    else match FindByEmail(s, email)
      case None => Rejected("Email not registered")
      case Some(u) =>
        match ComparePassword(u, password)
        case None => Errored
        case Some(ok) => if ok then Authenticated(u) else Rejected("Password incorrect")
  }

  /**
   * `POST /login`. It never writes the store. A verified account is logged
   * in; an unverified one only gets the pending id; anything else changes
   * nothing.
   */
  function Login(s: seq<User>, c: Ctx, email: string, password: string, up: bool): (r: Step)
    ensures r.users == s
    ensures var v := LocalStrategy(s, email, password, up);
      && (!v.Authenticated? ==> r.session == c)
      && (v.Errored? ==> r.reply == Fail)
      && (v.Rejected? ==> r.reply.Redirect? && r.reply.to == "/login")
      && (v.Authenticated? && v.user.emailVerified ==> r.session == LogIn(v.user) && r.reply == Redirect("/", None))
      && (v.Authenticated? && !v.user.emailVerified ==>
            r.session == c.(pending := Some(v.user.id)) && r.reply.Redirect? && r.reply.to == "/verify-email")
    ensures r.session.user != c.user ==> exists u | u in s :: u.emailVerified && r.session.user == Some(u.id)
  {
    match LocalStrategy(s, email, password, up)
    case Errored => Step(s, c, Fail)
    case Rejected(m) => Step(s, c, ErrorTo("/login", if m == "" then "Invalid credentials" else m))
    case Authenticated(u) =>
      if !u.emailVerified then
        Step(s, c.(pending := Some(u.id)), Redirect("/verify-email", Some(Flash(InfoFlash, "Please verify your email to continue."))))
      else Step(s, LogIn(u), Redirect("/", None))
  }

  // ===== Verification =====

  /** The record named by the pending id, if any. */
  function PendingUser(s: seq<User>, c: Ctx): (r: Option<User>)
    ensures r.Some? ==> c.pending == Some(r.value.id) && r.value in s
    ensures r.None? <==> c.pending.None? || forall i | 0 <= i < |s| :: s[i].id != c.pending.value
  {
    if c.pending.None? then None else FindById(s, c.pending.value)
  }

  /**
   * The acceptance test: the submitted code equals the stored one exactly,
   * and the stored expiry lies strictly after `now`.
   */
  predicate CodeAccepted(u: User, code: Option<string>, now: int) {
    u.verificationCode == code && u.verificationCodeExpires.Some? && u.verificationCodeExpires.value > now
  }

  /** The record after a successful verification. */
  function MarkVerified(u: User): (v: User)
    ensures v.emailVerified && v.verificationCode.None? && v.verificationCodeExpires.None?
    ensures v.(emailVerified := u.emailVerified, verificationCode := u.verificationCode,
               verificationCodeExpires := u.verificationCodeExpires) == u
  {
    u.(emailVerified := true, verificationCode := None, verificationCodeExpires := None)
  }

  /** `POST /verify-email`. */
  function VerifyEmail(s: seq<User>, c: Ctx, code: Option<string>, now: int, up: bool): (r: Step)
    ensures c.pending.None? ==> r == Step(s, c, SessionExpired)
    ensures var p := PendingUser(s, c);
      if up && p.Some? && CodeAccepted(p.value, code, now) then
        && r.users == Save(s, MarkVerified(p.value))
        && r.session == Ctx(None, Some(p.value.id))
        && r.reply == Redirect("/", Some(Flash(SuccessFlash, "Email verified! You are now logged in.")))
      else
        && r.users == s && r.session == c
        && (up && p.Some? ==> r.reply == ErrorTo("/verify-email", "Invalid or expired verification code."))
        && (up && c.pending.Some? && p.None? ==> r.reply == UserNotFound)
  {
    if c.pending.None? then Step(s, c, SessionExpired)
    else if !up then Step(s, c, ErrorTo("/verify-email", "Something went wrong."))
    else match FindById(s, c.pending.value)
      case None => Step(s, c, UserNotFound)
      case Some(u) =>
        if CodeAccepted(u, code, now) then
          Step(Save(s, MarkVerified(u)), LogIn(u),
               Redirect("/", Some(Flash(SuccessFlash, "Email verified! You are now logged in."))))
        else Step(s, c, ErrorTo("/verify-email", "Invalid or expired verification code."))
  }

  // ===== Resend =====

  /** The issue time of the current code, rebuilt from its expiry; 0 when there is none. */
  function IssuedAt(u: User): int {
    if u.verificationCodeExpires.Some? then u.verificationCodeExpires.value - CodeLifetimeMs else 0
  }

  /** A resend is refused while `(expires - 10 min) + 2 min > now`. */
  predicate ResendAllowed(u: User, now: int) {
    !(IssuedAt(u) + ResendCooldownMs > now)
  }

  /** The record after a new code `n` is issued at `now`. */
  function Reissue(u: User, n: int, now: int): (v: User)
    requires 100000 <= n <= 999999
    ensures v.verificationCode == Some(IssueCode(n)) && v.verificationCodeExpires == Some(now + CodeLifetimeMs)
    ensures v.(verificationCode := u.verificationCode, verificationCodeExpires := u.verificationCodeExpires) == u
  {
    u.(verificationCode := Some(IssueCode(n)), verificationCodeExpires := Some(now + CodeLifetimeMs))
  }

  /** `POST /resend-code`. It never touches the session. */
  function ResendCode(s: seq<User>, c: Ctx, now: int, n: int, up: bool): (r: Step)
    requires 100000 <= n <= 999999
    ensures r.session == c
    ensures c.pending.None? ==> r == Step(s, c, SessionExpired)
    ensures !up && c.pending.Some? ==> r.reply == ErrorTo("/verify-email", "Failed to resend code. Please try again.")
    ensures up && c.pending.Some? && PendingUser(s, c).None? ==> r.reply == UserNotFound
    ensures var p := PendingUser(s, c);
      if up && p.Some? && ResendAllowed(p.value, now) then
        && r.users == Save(s, Reissue(p.value, n, now))
        && r.reply == Redirect("/verify-email", Some(Flash(SuccessFlash, "New verification code sent to your email.")))
      else
        && r.users == s
        && (up && p.Some? ==> r.reply == ErrorTo("/verify-email", "Please wait before requesting a new code."))
  {
    if c.pending.None? then Step(s, c, SessionExpired)
    else if !up then Step(s, c, ErrorTo("/verify-email", "Failed to resend code. Please try again."))
    else match FindById(s, c.pending.value)
      case None => Step(s, c, UserNotFound)
      case Some(u) =>
        if IssuedAt(u) + ResendCooldownMs > now then
          Step(s, c, ErrorTo("/verify-email", "Please wait before requesting a new code."))
        else
          Step(Save(s, Reissue(u, n, now)), c,
               Redirect("/verify-email", Some(Flash(SuccessFlash, "New verification code sent to your email."))))
  }

  // ===== The route-local verified check =====

  /**
   * The `checkVerified` helper at the top of routes/auth.js (defined there
   * but mounted on no route): a verified `req.user` passes. Otherwise its
   * id is written as the pending id and the caller is logged out; the
   * logout regenerates the session, so the pending id is lost with it, and
   * the callback sends the caller to /verify-email. Without `req.user` it
   * throws.
   */
  function RequireVerified(s: seq<User>, c: Ctx, reqUser: Option<User>): (r: Step)
    ensures r.users == s
    ensures r.reply == Proceed <==> reqUser.Some? && reqUser.value.emailVerified
    ensures r.reply == Proceed ==> r.session == c
    ensures reqUser.None? ==> r.reply == Fail && r.session == c
    ensures reqUser.Some? && !reqUser.value.emailVerified ==>
              r.session == LoggedOut
              && r.reply == Redirect("/verify-email", Some(Flash(InfoFlash, "Please verify your email to continue.")))
  {
    if reqUser.Some? && reqUser.value.emailVerified then Step(s, c, Proceed)
    else if reqUser.None? then Step(s, c, Fail)
    else Step(s, LoggedOut,
              Redirect("/verify-email", Some(Flash(InfoFlash, "Please verify your email to continue."))))
  }
}

=== FILE: blogs.dfy ===
/**
 * The blog-writing routes of routes/blogs.js: create, edit and delete by the
 * author, tag parsing with the `editor-pick` restriction, comments and
 * their upvotes, and likes. The caller is `req.user`, whom `ensureAuth` has
 * already admitted; the blog collection is a map from id to document.
 */
module Blogs {
  import opened Wrappers
  import opened Users
  import opened Http
  import opened Seqs
  import Text

  datatype Comment = Comment(id: Id, user: Id, name: string, text: string, createdAt: int, upvotes: seq<Id>)

  datatype Blog = Blog(
    id: Id,
    title: string,
    description: string,
    content: string,
    coverImage: string,
    category: Option<Id>,
    author: Id,
    views: nat,
    published: bool,
    comments: seq<Comment>,
    likes: seq<Id>,
    tags: seq<string>)

  /** A route's effect on the blog collection, and its reply. */
  datatype BlogStep = BlogStep(blogs: map<Id, Blog>, reply: Reply)

  /** The fields of the create and edit forms; an absent title is modelled as "". */
  datatype BlogForm = BlogForm(
    title: string,
    description: string,
    content: string,
    category: Option<string>,
    published: Option<string>,
    tags: Option<string>)

  /** The covers a blog created without an upload draws from. */
  const DefaultCovers := ["/uploads/blogImages/1.jpg", "/uploads/blogImages/2.jpg",
                          "/uploads/blogImages/3.jpg", "/uploads/blogImages/4.jpg"]

  const EditorPick := "editor-pick"

  function Notice(kind: FlashKind, to: string, text: string): Reply {
    Redirect(to, Some(Flash(kind, text)))
  }

  // ===== Tags =====

  /** Lower-casing maps white space to white space and nothing else to it. */
  lemma LowerKeepsSpace(c: char)
    ensures Text.IsSpace(Text.Lower(c)) <==> Text.IsSpace(c)
  {
  }

  /** `tag.trim().toLowerCase()`. */
  function NormaliseTag(t: string): (r: string)
    ensures r == Text.LowerStr(Text.Trim(t))
    ensures Text.Trimmed(r) && Text.NoUpper(r)
    ensures |r| <= |t|
    ensures ',' !in t ==> ',' !in r
  {
    var trimmed := Text.Trim(t);
    var r := Text.LowerStr(trimmed);
    assert Text.Trimmed(r) by {
      if |r| > 0 {
        LowerKeepsSpace(trimmed[0]);
        LowerKeepsSpace(trimmed[|trimmed| - 1]);
      }
    }
    assert ',' !in t ==> ',' !in r by {
      if ',' !in t {
        forall i | 0 <= i < |r| ensures r[i] != ',' {
          assert trimmed[i] == t[Text.LeadingSpaces(t) + i];
        }
      }
    }
    r
  }

  /** A tag already in normal form. */
  predicate IsTag(t: string) { Text.Trimmed(t) && Text.NoUpper(t) && ',' !in t }

  /** A tag in normal form is its own normal form. */
  lemma NormaliseTagFixes(t: string)
    requires IsTag(t)
    ensures NormaliseTag(t) == t
  {
    Text.TrimOfTrimmed(t);
    Text.LowerStrNoUpper(t);
  }

  /**
   * `req.body.tags ? req.body.tags.split(',').map(tag => tag.trim().toLowerCase()) : []`:
   * one tag per comma-separated piece, in order, empty pieces included.
   */
  function ParseTags(tags: Option<string>): (r: seq<string>)
    ensures !Truthy(tags) ==> r == []
    ensures Truthy(tags) ==> |r| == |Text.Split(tags.value, ',')|
    ensures Truthy(tags) ==> forall i | 0 <= i < |r| :: r[i] == NormaliseTag(Text.Split(tags.value, ',')[i])
    ensures forall i | 0 <= i < |r| :: IsTag(r[i])
  {
    if !Truthy(tags) then []
    else
      var pieces := Text.Split(tags.value, ',');
      seq(|pieces|, i requires 0 <= i < |pieces| => NormaliseTag(pieces[i]))
  }

  /** The tags of a piece-wise normal list are themselves; joining them with commas and parsing gives them back. */
  lemma {:induction false} ParseTagsJoin(tags: seq<string>)
    requires |tags| >= 1 && forall i | 0 <= i < |tags| :: IsTag(tags[i])
    requires Text.Join(tags, ',') != ""
    ensures ParseTags(Some(Text.Join(tags, ','))) == tags
  {
    Text.SplitJoin(tags, ',');
    forall i | 0 <= i < |tags| ensures NormaliseTag(tags[i]) == tags[i] {
      NormaliseTagFixes(tags[i]);
    }
  }

  /**
   * The `editor-pick` restriction: unless the caller's role is exactly
   * 'admin', every `editor-pick` tag is dropped and the others are kept
   * with their multiplicity. No role the schema admits is 'admin', so the
   * tag is dropped for every stored user.
   */
  function FilterEditorPick(tags: seq<string>, role: string): (r: seq<string>)
    ensures role == "admin" ==> r == tags
    ensures role != "admin" ==> EditorPick !in r && forall t | t in tags && t != EditorPick :: t in r
    ensures role != "admin" ==> forall t | t != EditorPick :: multiset(r)[t] == multiset(tags)[t]
    ensures role in Roles ==> EditorPick !in r
  {
    if role != "admin" then
      forall t | t != EditorPick ensures multiset(RemoveAll(tags, EditorPick))[t] == multiset(tags)[t] {
        RemoveAllCount(tags, EditorPick, t);
      }
      assert forall t | t in tags && t != EditorPick :: t in RemoveAll(tags, EditorPick) by {
        forall t | t in tags && t != EditorPick ensures t in RemoveAll(tags, EditorPick) {
          RemoveAllCount(tags, EditorPick, t);
        }
      }
      RemoveAll(tags, EditorPick)
    else tags
  }

  /** The tags a create or edit stores. */
  function FormTags(form: BlogForm, role: string): seq<string> {
    FilterEditorPick(ParseTags(form.tags), role)
  }

  // ===== Create, edit, delete =====

  function UploadPath(file: string): string { "/uploads/blogImages/" + file }

  /**
   * The cast of the schema's `category` path: an absent category stays
   * absent; a present one must be an ObjectId and is stored in its cast
   * form; anything else makes the document invalid (None).
   */
  function CategoryCast(category: Option<string>): (r: Option<Option<Id>>)
    ensures category.None? ==> r == Some(None)
    ensures category.Some? ==> (r.Some? <==> IsObjectId(category.value))
    ensures category.Some? && r.Some? ==> r.value == Cast(category.value) && Text.NoUpper(r.value.value)
  {
    match category
    case None => Some(None)
    case Some(c) => if Cast(c).None? then None else Some(Cast(c))
  }

  /** The form passes the schema's checks: the required title is non-empty and the category casts. */
  predicate Valid(form: BlogForm) {
    form.title != "" && CategoryCast(form.category).Some?
  }

  /**
   * `POST /blogs`. `upload` is the stored file name, if any; `pick` is the
   * random index into the default covers; `newId` is the new document's id.
   */
  function CreateBlog(blogs: map<Id, Blog>, user: User, form: BlogForm, upload: Option<string>, pick: nat, newId: Id): (r: BlogStep)
    requires pick < |DefaultCovers|
    ensures newId in blogs || !Valid(form) ==> r == BlogStep(blogs, Status(200, "Error creating blog"))
    ensures newId !in blogs && Valid(form) ==>
              && r.blogs.Keys == blogs.Keys + {newId}
              && (forall id | id in blogs :: r.blogs[id] == blogs[id])
              && r.reply == Notice(SuccessFlash, "/myblogs", "Blog created successfully!")
    ensures newId !in blogs && Valid(form) ==>
              var b := r.blogs[newId];
              && b.id == newId && b.author == user.id
              && b.title == form.title && b.description == form.description
              && b.content == form.content && b.category == CategoryCast(form.category).value
              && b.views == 0 && b.comments == [] && b.likes == []
              && (b.published <==> form.published == Some("true"))
              && b.tags == FormTags(form, user.role)
              && (upload.Some? ==> b.coverImage == UploadPath(upload.value))
              && (upload.None? ==> b.coverImage in DefaultCovers)
  {
    if newId in blogs || !Valid(form) then BlogStep(blogs, Status(200, "Error creating blog"))
    else
      var cover := if upload.Some? then UploadPath(upload.value) else DefaultCovers[pick];
      var b := Blog(newId, form.title, form.description, form.content, cover, CategoryCast(form.category).value,
                    user.id, 0, form.published == Some("true"), [], [], FormTags(form, user.role));
      BlogStep(blogs[newId := b], Notice(SuccessFlash, "/myblogs", "Blog created successfully!"))
  }

  /** The route parameter `id` casts to the id of a stored blog. */
  predicate Names(blogs: map<Id, Blog>, id: string) {
    Cast(id).Some? && Cast(id).value in blogs
  }

  /** The author check of edit and delete: `id` names a stored blog and `user` wrote it. */
  predicate IsAuthor(blogs: map<Id, Blog>, id: string, user: User) {
    Names(blogs, id) && blogs[Cast(id).value].author == user.id
  }

  /**
   * `POST /blogs/edit/:id`. A parameter that is no ObjectId makes
   * `findById` throw, and a form the schema rejects makes `save` throw;
   * the catch answers both with its own text.
   */
  function EditBlog(blogs: map<Id, Blog>, user: User, id: string, form: BlogForm, upload: Option<string>): (r: BlogStep)
    ensures Cast(id).None? ==> r == BlogStep(blogs, Status(200, "Error updating blog"))
    ensures Cast(id).Some? && !Names(blogs, id) ==> r == BlogStep(blogs, Status(200, "Blog not found"))
    ensures Names(blogs, id) && !IsAuthor(blogs, id, user) ==>
              r == BlogStep(blogs, Notice(ErrorFlash, "/myblogs", "Not authorized"))
    ensures IsAuthor(blogs, id, user) && !Valid(form) ==> r == BlogStep(blogs, Status(200, "Error updating blog"))
    ensures r.blogs.Keys == blogs.Keys
    ensures forall k | k in blogs && Cast(id) != Some(k) :: r.blogs[k] == blogs[k]
    ensures IsAuthor(blogs, id, user) && Valid(form) ==>
              var key := Cast(id).value;
              var (old_, new_) := (blogs[key], r.blogs[key]);
              && new_.title == form.title && new_.description == form.description
              && new_.content == form.content && new_.category == CategoryCast(form.category).value
              && (new_.published <==> form.published == Some("true"))
              && new_.tags == FormTags(form, user.role)
              && new_.coverImage == (if upload.Some? then UploadPath(upload.value) else old_.coverImage)
              && new_.id == old_.id && new_.author == old_.author && new_.views == old_.views
              && new_.comments == old_.comments && new_.likes == old_.likes
              && r.reply == Notice(SuccessFlash, "/myblogs", "Blog updated successfully!")
  {
    match Cast(id)
    case None => BlogStep(blogs, Status(200, "Error updating blog"))
    case Some(key) =>
      if key !in blogs then BlogStep(blogs, Status(200, "Blog not found"))
      else
        var b := blogs[key];
        if b.author != user.id then BlogStep(blogs, Notice(ErrorFlash, "/myblogs", "Not authorized"))
        else if !Valid(form) then BlogStep(blogs, Status(200, "Error updating blog"))
        else
          var cover := if upload.Some? then UploadPath(upload.value) else b.coverImage;
          var b' := b.(title := form.title, description := form.description, content := form.content,
                       category := CategoryCast(form.category).value, published := form.published == Some("true"),
                       tags := FormTags(form, user.role), coverImage := cover);
          BlogStep(blogs[key := b'], Notice(SuccessFlash, "/myblogs", "Blog updated successfully!"))
  }

  /** `GET /blogs/delete/:id`. */
  function DeleteBlog(blogs: map<Id, Blog>, user: User, id: string): (r: BlogStep)
    ensures Cast(id).None? ==> r == BlogStep(blogs, Status(200, "Error deleting blog"))
    ensures Cast(id).Some? && !Names(blogs, id) ==> r == BlogStep(blogs, Status(200, "Blog not found"))
    ensures Names(blogs, id) && !IsAuthor(blogs, id, user) ==>
              r == BlogStep(blogs, Notice(ErrorFlash, "/myblogs", "Not authorized"))
    ensures IsAuthor(blogs, id, user) ==>
              && r.blogs.Keys == blogs.Keys - {Cast(id).value}
              && (forall k | k in r.blogs :: r.blogs[k] == blogs[k])
              && r.reply == Notice(SuccessFlash, "/myblogs", "Blog deleted successfully")
  {
    match Cast(id)
    case None => BlogStep(blogs, Status(200, "Error deleting blog"))
    case Some(key) =>
      if key !in blogs then BlogStep(blogs, Status(200, "Blog not found"))
      else if blogs[key].author != user.id then BlogStep(blogs, Notice(ErrorFlash, "/myblogs", "Not authorized"))
      else BlogStep(blogs - {key}, Notice(SuccessFlash, "/myblogs", "Blog deleted successfully"))
  }

  /** Only the author can change or remove a blog through edit or delete. */
  lemma {:induction false} OnlyAuthorWrites(blogs: map<Id, Blog>, user: User, id: string, form: BlogForm, upload: Option<string>)
    ensures EditBlog(blogs, user, id, form, upload).blogs != blogs ==> IsAuthor(blogs, id, user)
    ensures DeleteBlog(blogs, user, id).blogs != blogs ==> IsAuthor(blogs, id, user)
  {
  }

  /**
   * A create stores a blog of the caller's exactly when the form is valid,
   * and its author deleting it through the id the store gave it restores
   * the collection; after a rejected create the delete finds nothing.
   */
  lemma {:induction false} CreateThenDelete(blogs: map<Id, Blog>, user: User, form: BlogForm, upload: Option<string>, pick: nat, newId: Id)
    requires pick < |DefaultCovers| && newId !in blogs
    requires IsObjectId(newId) && Text.NoUpper(newId)
    ensures var created := CreateBlog(blogs, user, form, upload, pick, newId).blogs;
      && (IsAuthor(created, newId, user) <==> Valid(form))
      && DeleteBlog(created, user, newId).blogs == blogs
  {
    CastCanonical(newId);
    var created := CreateBlog(blogs, user, form, upload, pick, newId).blogs;
    assert created - {newId} == blogs;
  }

  // ===== Comments =====

  function BlogPath(id: string): string { "/blog/" + id }

  /**
   * `POST /blog/:id/comment`: appends one comment by `user`, and sends the
   * caller to the page of the stored blog.
   */
  function AddComment(blogs: map<Id, Blog>, user: User, id: string, text: string, now: int, commentId: Id): (r: BlogStep)
    ensures Cast(id).None? ==> r == BlogStep(blogs, Status(200, "Error posting comment"))
    ensures Cast(id).Some? && !Names(blogs, id) ==> r == BlogStep(blogs, Status(404, "Blog not found"))
    ensures r.blogs.Keys == blogs.Keys
    ensures forall k | k in blogs && Cast(id) != Some(k) :: r.blogs[k] == blogs[k]
    ensures Names(blogs, id) ==>
              var key := Cast(id).value;
              var (b, b') := (blogs[key], r.blogs[key]);
              && b'.comments == b.comments + [Comment(commentId, user.id, user.name, text, now, [])]
              && b' == b.(comments := b'.comments)
              && r.reply == Notice(SuccessFlash, BlogPath(b.id), "Comment added!")
  {
    match Cast(id)
    case None => BlogStep(blogs, Status(200, "Error posting comment"))
    case Some(key) =>
      if key !in blogs then BlogStep(blogs, Status(404, "Blog not found"))
      else
        var b := blogs[key];
        var b' := b.(comments := b.comments + [Comment(commentId, user.id, user.name, text, now, [])]);
        BlogStep(blogs[key := b'], Notice(SuccessFlash, BlogPath(b.id), "Comment added!"))
  }

  /**
   * The comments the delete route removes: those whose id reads as the
   * parameter, written by `userId`.
   */
  predicate Doomed(c: Comment, commentId: string, userId: Id) {
    c.id == commentId && c.user == userId
  }

  /** The filter of the delete route. */
  function Kept(commentId: string, userId: Id): Comment -> bool {
    (c: Comment) => !Doomed(c, commentId, userId)
  }

  /**
   * `GET /blog/:blogId/comment/:commentId/delete`: keeps, in order, every
   * comment except those with that id written by the caller.
   */
  function DeleteComment(blogs: map<Id, Blog>, user: User, blogId: string, commentId: string): (r: BlogStep)
    ensures Cast(blogId).None? ==> r == BlogStep(blogs, Status(200, "Error deleting comment"))
    ensures Cast(blogId).Some? && !Names(blogs, blogId) ==> r == BlogStep(blogs, Status(404, "Blog not found"))
    ensures r.blogs.Keys == blogs.Keys
    ensures forall k | k in blogs && Cast(blogId) != Some(k) :: r.blogs[k] == blogs[k]
    ensures Names(blogs, blogId) ==>
              var key := Cast(blogId).value;
              var (b, b') := (blogs[key], r.blogs[key]);
              && b' == b.(comments := b'.comments)
              && (forall c | c in b'.comments :: c in b.comments && !Doomed(c, commentId, user.id))
              && (forall c | c in b.comments && !Doomed(c, commentId, user.id) :: c in b'.comments)
              && ((forall c | c in b.comments :: !Doomed(c, commentId, user.id)) ==> b' == b)
              && r.reply == Notice(SuccessFlash, BlogPath(b.id), "Comment deleted successfully")
  {
    match Cast(blogId)
    case None => BlogStep(blogs, Status(200, "Error deleting comment"))
    case Some(key) =>
      if key !in blogs then BlogStep(blogs, Status(404, "Blog not found"))
      else
        var b := blogs[key];
        var kept := Filter(b.comments, Kept(commentId, user.id));
        BlogStep(blogs[key := b.(comments := kept)], Notice(SuccessFlash, BlogPath(b.id), "Comment deleted successfully"))
  }

  /**
   * Deleting the comment just posted, by its fresh id, restores the blog:
   * nothing else the caller wrote goes with it.
   */
  lemma {:induction false} AddThenDeleteComment(blogs: map<Id, Blog>, user: User, id: string, text: string, now: int, commentId: Id)
    requires Names(blogs, id)
    requires forall c | c in blogs[Cast(id).value].comments :: c.id != commentId
    ensures var added := AddComment(blogs, user, id, text, now, commentId).blogs;
      DeleteComment(added, user, id, commentId).blogs == blogs
  {
    var key := Cast(id).value;
    var b := blogs[key];
    var posted := Comment(commentId, user.id, user.name, text, now, []);
    var b1 := b.(comments := b.comments + [posted]);
    var added := blogs[key := b1];
    assert AddComment(blogs, user, id, text, now, commentId).blogs == added;
    var keep := Kept(commentId, user.id);
    FilterAppend(b.comments, [posted], keep);
    assert Filter([posted], keep) == [] by {
      assert [posted][1..] == [];
    }
    assert Filter(b.comments, keep) == b.comments;
    assert Filter(b1.comments, keep) == b.comments;
    assert b1.(comments := b.comments) == b;
    assert Cast(id) == Some(key) && key in added && added[key] == b1;
    assert DeleteComment(added, user, id, commentId).blogs == added[key := b1.(comments := Filter(b1.comments, keep))];
    assert DeleteComment(added, user, id, commentId).blogs == added[key := b];
    MapRestore(blogs, key, b1);
  }

  /** `blog.comments.id(commentId)` on a cast id: the position of the first comment with that id, or -1. */
  function CommentIndex(comments: seq<Comment>, commentId: Id): (i: int)
    ensures -1 <= i < |comments|
    ensures i == -1 <==> forall j | 0 <= j < |comments| :: comments[j].id != commentId
    ensures i >= 0 ==> comments[i].id == commentId && forall j | 0 <= j < i :: comments[j].id != commentId
  {
    FindIndex(comments, (c: Comment) => c.id == commentId)
  }

  /** The lookup only reads ids. */
  lemma CommentIndexIds(a: seq<Comment>, b: seq<Comment>, commentId: Id)
    requires |a| == |b| && forall j | 0 <= j < |a| :: a[j].id == b[j].id
    ensures CommentIndex(a, commentId) == CommentIndex(b, commentId)
  {
    var i, k := CommentIndex(a, commentId), CommentIndex(b, commentId);
    assert !(0 <= i < k) && !(0 <= k < i);
  }

  /**
   * `blog.comments.id(commentId)` on the route parameter: it is cast
   * first, and a parameter that does not cast matches no comment.
   */
  function FindComment(comments: seq<Comment>, commentId: string): (i: int)
    ensures -1 <= i < |comments|
    ensures i == -1 <==> Cast(commentId).None? || forall j | 0 <= j < |comments| :: comments[j].id != Cast(commentId).value
    ensures i >= 0 ==> Cast(commentId) == Some(comments[i].id) && forall j | 0 <= j < i :: comments[j].id != comments[i].id
  {
    if Cast(commentId).None? then -1 else CommentIndex(comments, Cast(commentId).value)
  }

  /** The parameters name a stored blog and one of its comments. */
  predicate HasComment(blogs: map<Id, Blog>, blogId: string, commentId: string) {
    Names(blogs, blogId) && FindComment(blogs[Cast(blogId).value].comments, commentId) >= 0
  }

  /**
   * `POST /blog/:blogId/comment/:commentId/upvote`: toggles the caller in
   * the upvotes of the first comment with that id, removing every copy when
   * present. Every other comment is untouched.
   */
  function ToggleUpvote(blogs: map<Id, Blog>, user: User, blogId: string, commentId: string): (r: BlogStep)
    ensures Cast(blogId).None? ==> r == BlogStep(blogs, Status(500, "Error upvoting comment"))
    ensures Cast(blogId).Some? && !Names(blogs, blogId) ==> r == BlogStep(blogs, Status(404, "Blog not found"))
    ensures Names(blogs, blogId) && !HasComment(blogs, blogId, commentId) ==>
              r == BlogStep(blogs, Status(404, "Comment not found"))
    ensures r.blogs.Keys == blogs.Keys
    ensures forall k | k in blogs && Cast(blogId) != Some(k) :: r.blogs[k] == blogs[k]
    ensures HasComment(blogs, blogId, commentId) ==>
              var key := Cast(blogId).value;
              var (b, b') := (blogs[key], r.blogs[key]);
              var i := FindComment(b.comments, commentId);
              && 0 <= i < |b.comments| && |b'.comments| == |b.comments|
              && b'.comments == b.comments[i := b.comments[i].(upvotes := b'.comments[i].upvotes)]
              && b' == b.(comments := b'.comments)
              && (user.id in b'.comments[i].upvotes <==> user.id !in b.comments[i].upvotes)
              && (forall y | y != user.id :: multiset(b'.comments[i].upvotes)[y] == multiset(b.comments[i].upvotes)[y])
              && r.reply == Redirect(BlogPath(blogId) + "#comment-" + b.comments[i].id, None)
  {
    match Cast(blogId)
    case None => BlogStep(blogs, Status(500, "Error upvoting comment"))
    case Some(key) =>
      if key !in blogs then BlogStep(blogs, Status(404, "Blog not found"))
      else
        var b := blogs[key];
        var i := FindComment(b.comments, commentId);
        if i == -1 then BlogStep(blogs, Status(404, "Comment not found"))
        else
          var c := b.comments[i];
          forall y | y != user.id ensures multiset(ToggleAll(c.upvotes, user.id))[y] == multiset(c.upvotes)[y] {
            TogglesKeepOthers(c.upvotes, user.id, y);
          }
          var b' := b.(comments := b.comments[i := c.(upvotes := ToggleAll(c.upvotes, user.id))]);
          BlogStep(blogs[key := b'], Redirect(BlogPath(blogId) + "#comment-" + c.id, None))
  }

  // ===== Likes =====

  /** The catch branch of the like route: the error's message as JSON, or a plain 500. */
  function LikeError(xhr: bool, message: string): Reply {
    if xhr then Json(500, ErrorMessage(message)) else Status(500, "Error liking blog")
  }

  /**
   * `POST /blog/:id/like` for a logged-in caller: the first copy of the
   * caller's id is spliced out when present, otherwise it is pushed. The
   * reply reports `liked` and the new count to an XMLHttpRequest and
   * redirects back otherwise. A parameter that does not cast throws a
   * CastError, whose message the catch reports.
   */
  function ToggleLike(blogs: map<Id, Blog>, user: User, blogId: string, xhr: bool): (r: BlogStep)
    ensures Cast(blogId).None? ==> r == BlogStep(blogs, LikeError(xhr, CastErrorMessage(blogId, "Blog")))
    ensures Cast(blogId).Some? && !Names(blogs, blogId) ==> r == BlogStep(blogs, LikeError(xhr, "Blog not found"))
    ensures r.blogs.Keys == blogs.Keys
    ensures forall k | k in blogs && Cast(blogId) != Some(k) :: r.blogs[k] == blogs[k]
    ensures Names(blogs, blogId) ==>
              var key := Cast(blogId).value;
              var (b, b') := (blogs[key], r.blogs[key]);
              && b' == b.(likes := b'.likes)
              && (user.id in b.likes ==> b'.likes == RemoveAt(b.likes, IndexOf(b.likes, user.id)))
              && (user.id in b.likes ==> multiset(b'.likes) == multiset(b.likes) - multiset{user.id})
              && (user.id !in b.likes ==> b'.likes == b.likes + [user.id])
              && (xhr ==> r.reply == Json(200, LikeResult(user.id !in b.likes, |b'.likes|)))
              && (!xhr ==> r.reply == Redirect("back", None))
  {
    match Cast(blogId)
    case None => BlogStep(blogs, LikeError(xhr, CastErrorMessage(blogId, "Blog")))
    case Some(key) =>
      if key !in blogs then BlogStep(blogs, LikeError(xhr, "Blog not found"))
      else
        var b := blogs[key];
        var liked := IndexOf(b.likes, user.id) == -1;
        var b' := b.(likes := ToggleFirst(b.likes, user.id));
        BlogStep(blogs[key := b'], if xhr then Json(200, LikeResult(liked, |b'.likes|)) else Redirect("back", None))
  }

  /**
   * Likes never repeat an id, since only the toggle writes them; under that
   * invariant the reported `liked` is exactly whether the caller is now
   * among the likes, and the count moves by one.
   */
  lemma {:induction false} LikeReportsMembership(blogs: map<Id, Blog>, user: User, blogId: string)
    requires Names(blogs, blogId) && NoDup(blogs[Cast(blogId).value].likes)
    ensures var key := Cast(blogId).value;
      var r := ToggleLike(blogs, user, blogId, true);
      && NoDup(r.blogs[key].likes)
      && r.reply.Json? && r.reply.json.LikeResult?
      && (r.reply.json.liked <==> user.id in r.blogs[key].likes)
      && r.reply.json.likesCount == if r.reply.json.liked then |blogs[key].likes| + 1 else |blogs[key].likes| - 1
  {
    ToggleFirstNoDup(blogs[Cast(blogId).value].likes, user.id);
  }

  /** The blog collection after one like toggle on a stored blog. */
  lemma ToggleLikeBlogs(blogs: map<Id, Blog>, user: User, blogId: string, xhr: bool)
    requires Names(blogs, blogId)
    ensures var key := Cast(blogId).value;
      var b := blogs[key];
      ToggleLike(blogs, user, blogId, xhr).blogs == blogs[key := b.(likes := ToggleFirst(b.likes, user.id))]
  {
  }

  /** Liking twice from a state without the caller's like restores the blog. */
  lemma {:induction false} LikeTwice(blogs: map<Id, Blog>, user: User, blogId: string, xhr: bool, xhr2: bool)
    requires Names(blogs, blogId) && user.id !in blogs[Cast(blogId).value].likes
    ensures ToggleLike(ToggleLike(blogs, user, blogId, xhr).blogs, user, blogId, xhr2).blogs == blogs
  {
    var key := Cast(blogId).value;
    var b := blogs[key];
    var b1 := b.(likes := b.likes + [user.id]);
    var blogs1 := blogs[key := b1];
    assert ToggleLike(blogs, user, blogId, xhr).blogs == blogs1 by {
      ToggleLikeBlogs(blogs, user, blogId, xhr);
    }
    assert ToggleLike(blogs1, user, blogId, xhr2).blogs == blogs by {
      ToggleLikeBlogs(blogs1, user, blogId, xhr2);
      ToggleTwiceAbsent(b.likes, user.id);
      assert b1.(likes := b.likes) == b;
      MapRestore(blogs, key, b1);
    }
  }

  /** The blog collection after one upvote toggle on a stored comment. */
  lemma ToggleUpvoteBlogs(blogs: map<Id, Blog>, user: User, blogId: string, commentId: string)
    requires HasComment(blogs, blogId, commentId)
    ensures var key := Cast(blogId).value;
      var b := blogs[key];
      var i := FindComment(b.comments, commentId);
      var c := b.comments[i];
      ToggleUpvote(blogs, user, blogId, commentId).blogs
        == blogs[key := b.(comments := b.comments[i := c.(upvotes := ToggleAll(c.upvotes, user.id))])]
  {
  }

  /** Upvoting twice from a state without the caller's upvote restores the blog. */
  lemma {:induction false} UpvoteTwice(blogs: map<Id, Blog>, user: User, blogId: string, commentId: string)
    requires HasComment(blogs, blogId, commentId)
    requires var b := blogs[Cast(blogId).value];
      user.id !in b.comments[FindComment(b.comments, commentId)].upvotes
    ensures ToggleUpvote(ToggleUpvote(blogs, user, blogId, commentId).blogs, user, blogId, commentId).blogs == blogs
  {
    var key := Cast(blogId).value;
    var b := blogs[key];
    var i := FindComment(b.comments, commentId);
    var c := b.comments[i];
    var c1 := c.(upvotes := c.upvotes + [user.id]);
    var b1 := b.(comments := b.comments[i := c1]);
    var blogs1 := blogs[key := b1];
    assert ToggleUpvote(blogs, user, blogId, commentId).blogs == blogs1 by {
      ToggleUpvoteBlogs(blogs, user, blogId, commentId);
    }
    assert FindComment(b1.comments, commentId) == i by {
      CommentIndexIds(b.comments, b1.comments, Cast(commentId).value);
    }
    assert ToggleUpvote(blogs1, user, blogId, commentId).blogs == blogs by {
      ToggleUpvoteBlogs(blogs1, user, blogId, commentId);
      ToggleTwiceAbsent(c.upvotes, user.id);
      assert c1.(upvotes := c.upvotes) == c;
      SeqRestore(b.comments, i, c1);
      assert b1.(comments := b.comments) == b;
      MapRestore(blogs, key, b1);
    }
  }
}

=== FILE: bookmarks.dfy ===
/**
 * routes/bookmarks.js: the login guard of the bookmark routes and the
 * bookmark toggle, which answers XMLHttpRequest callers with JSON and
 * form posts with a redirect.
 */
module Bookmarks {
  import opened Wrappers
  import opened Users
  import opened Store
  import opened Http
  import opened Seqs
  import opened Session
  import Text
  import Gate

  /** A route's effect on the user collection, and its reply. */
  datatype UserStep = UserStep(users: seq<User>, reply: Reply)

  /**
   * `ensureAuthenticated`: a logged-in caller proceeds; otherwise an
   * XMLHttpRequest gets a 401 JSON answer and anything else goes to /login.
   */
  function EnsureAuthenticated(reqUser: Option<User>, xhr: bool): (r: Reply)
    ensures r == Proceed <==> reqUser.Some?
    ensures reqUser.None? && xhr ==> r == Json(401, ErrorMessage("Login required"))
    ensures reqUser.None? && !xhr ==> r == Redirect("/login", None)
  {
    if reqUser.Some? then Proceed
    else if xhr then Json(401, ErrorMessage("Login required"))
    else Redirect("/login", None)
  }

  /**
   * The bookmark guard is weaker than the verified-email gate: every caller
   * the gate admits passes it, and behind a session it admits exactly the
   * callers whose session resolves to a stored record.
   */
  lemma {:induction false} GuardsAgree(s: seq<User>, c: Ctx, xhr: bool)
    ensures Gate.CheckVerified(s, CurrentUser(s, c), true) == Proceed ==> EnsureAuthenticated(CurrentUser(s, c), xhr) == Proceed
    ensures EnsureAuthenticated(CurrentUser(s, c), xhr) == Proceed <==> c.user.Some? && FindById(s, c.user.value).Some?
  {
    if c.user.Some? && FindById(s, c.user.value).Some? {
      var u := FindById(s, c.user.value).value;
      assert u in s && u.id == c.user.value;
    }
  }

  /** `req.get('referer') || fallback`. */
  function Back(referer: Option<string>, fallback: string): (to: string)
    ensures Truthy(referer) ==> to == referer.value
    ensures !Truthy(referer) ==> to == fallback
  {
    if Truthy(referer) then referer.value else fallback
  }

  /** The catch branch: a 500, as JSON or as text. */
  function ServerError(xhr: bool): Reply {
    if xhr then Json(500, ErrorMessage("Server error")) else Status(500, "Server error")
  }

  /**
   * The update of the caller's bookmarks for a valid id: `includes`
   * compares the parameter as written with the stored ids; when it is
   * found, the filter drops every copy; otherwise `push` stores the id the
   * parameter casts to. Every other bookmark keeps its number of copies.
   */
  function BookmarkToggle(marks: seq<Id>, blogId: string): (r: seq<Id>)
    requires Cast(blogId).Some?
    ensures blogId in marks ==> blogId !in r
    ensures blogId !in marks ==> r == marks + [Cast(blogId).value]
    ensures forall y | y != blogId && Some(y) != Cast(blogId) :: multiset(r)[y] == multiset(marks)[y]
  {
    if blogId in marks then
      forall y | y != blogId ensures multiset(RemoveAll(marks, blogId))[y] == multiset(marks)[y] {
        RemoveAllCount(marks, blogId, y);
      }
      RemoveAll(marks, blogId)
    else marks + [Cast(blogId).value]
  }

  /** For an id already in the ObjectId's lower-case form, the update is the plain toggle. */
  lemma {:induction false} BookmarkToggleLower(marks: seq<Id>, blogId: string)
    requires IsObjectId(blogId) && Text.NoUpper(blogId)
    ensures BookmarkToggle(marks, blogId) == ToggleAll(marks, blogId)
  {
    CastCanonical(blogId);
  }

  /**
   * `POST /bookmarks/:blogId`. The caller's record is reloaded by id and
   * saved back; reading the bookmarks of a missing record throws.
   */
  function ToggleBookmark(users: seq<User>, reqUser: Option<User>, blogId: string, xhr: bool, referer: Option<string>, up: bool): (r: UserStep)
    ensures reqUser.None? ==> r == UserStep(users, EnsureAuthenticated(reqUser, xhr))
    ensures reqUser.Some? && !IsObjectId(blogId) ==>
              r == UserStep(users, if xhr then Json(400, ErrorMessage("Invalid blog ID")) else Redirect(Back(referer, "/"), None))
    ensures reqUser.Some? && IsObjectId(blogId) && (!up || FindById(users, reqUser.value.id).None?) ==>
              r == UserStep(users, ServerError(xhr))
    ensures |r.users| == |users|
    ensures r.users != users ==> reqUser.Some?
    ensures reqUser.Some? ==> forall i | 0 <= i < |users| && users[i].id != reqUser.value.id :: r.users[i] == users[i]
    ensures reqUser.Some? && IsObjectId(blogId) && up && FindById(users, reqUser.value.id).Some? ==>
              var u := FindById(users, reqUser.value.id).value;
              var marks := BookmarkToggle(u.bookmarks, blogId);
              && (UniqueIds(users) ==> forall i | 0 <= i < |users| && users[i].id == u.id :: r.users[i] == u.(bookmarks := marks))
              && (xhr ==> r.reply == Json(200, BookmarkResult(blogId !in u.bookmarks)))
              && (!xhr ==> r.reply == Redirect(Back(referer, "/bookmarks"), None))
  {
    if reqUser.None? then UserStep(users, EnsureAuthenticated(reqUser, xhr))
    else if !IsObjectId(blogId) then
      UserStep(users, if xhr then Json(400, ErrorMessage("Invalid blog ID")) else Redirect(Back(referer, "/"), None))
    else if !up then UserStep(users, ServerError(xhr))
    else match FindById(users, reqUser.value.id)
      case None => UserStep(users, ServerError(xhr))
      case Some(u) =>
        var bookmarked := blogId !in u.bookmarks;
        var u' := u.(bookmarks := BookmarkToggle(u.bookmarks, blogId));
        UserStep(Save(users, u'), if xhr then Json(200, BookmarkResult(bookmarked)) else Redirect(Back(referer, "/bookmarks"), None))
  }

  /**
   * The toggle's effect on the caller's own bookmarks: removing the blog
   * takes every copy out and reports false; adding appends the cast id once
   * and reports true; every other bookmark keeps its number of copies.
   */
  lemma {:induction false} BookmarkEffect(users: seq<User>, u: User, blogId: string, referer: Option<string>)
    requires UniqueIds(users) && u in users && IsObjectId(blogId)
    ensures var r := ToggleBookmark(users, Some(u), blogId, true, referer, true);
      && CurrentBookmarks(r.users, u.id).Some?
      && var marks := CurrentBookmarks(r.users, u.id).value;
      && (blogId in u.bookmarks ==> blogId !in marks && r.reply == Json(200, BookmarkResult(false)))
      && (blogId !in u.bookmarks ==> marks == u.bookmarks + [Cast(blogId).value] && r.reply == Json(200, BookmarkResult(true)))
      && (forall y | y != blogId && Some(y) != Cast(blogId) :: multiset(marks)[y] == multiset(u.bookmarks)[y])
  {
    FindByIdUnique(users, u);
    var r := ToggleBookmark(users, Some(u), blogId, true, referer, true);
    var u' := u.(bookmarks := BookmarkToggle(u.bookmarks, blogId));
    var i :| 0 <= i < |users| && users[i] == u;
    assert r.users[i] == u';
    FindByIdUnique(r.users, u');
  }

  /** The bookmarks of the record with id `id`, if there is one. */
  function CurrentBookmarks(users: seq<User>, id: Id): (r: Option<seq<Id>>)
    ensures r.Some? <==> FindById(users, id).Some?
  {
    match FindById(users, id)
    case Some(u) => Some(u.bookmarks)
    case None => None
  }

  /** One toggle by a stored caller rewrites exactly the caller's record. */
  lemma {:induction false} ToggleBookmarkAt(users: seq<User>, caller: User, i: nat, blogId: string, xhr: bool, referer: Option<string>)
    requires UniqueIds(users) && i < |users| && users[i].id == caller.id && IsObjectId(blogId)
    ensures ToggleBookmark(users, Some(caller), blogId, xhr, referer, true).users
              == users[i := users[i].(bookmarks := BookmarkToggle(users[i].bookmarks, blogId))]
  {
    var u := users[i];
    FindByIdUnique(users, u);
    var r := ToggleBookmark(users, Some(caller), blogId, xhr, referer, true);
    var u' := u.(bookmarks := BookmarkToggle(u.bookmarks, blogId));
    forall j | 0 <= j < |users| ensures r.users[j] == users[i := u'][j] {
      if j != i {
        assert users[j].id != u.id;
      }
    }
  }

  /** Toggling a lower-case id that is not bookmarked twice restores the collection. */
  lemma {:induction false} BookmarkTwice(users: seq<User>, u: User, blogId: string, xhr: bool, referer: Option<string>)
    requires UniqueIds(users) && u in users && IsObjectId(blogId) && Text.NoUpper(blogId) && blogId !in u.bookmarks
    ensures var r := ToggleBookmark(users, Some(u), blogId, xhr, referer, true);
      ToggleBookmark(r.users, Some(u), blogId, xhr, referer, true).users == users
  {
    var i :| 0 <= i < |users| && users[i] == u;
    var u' := u.(bookmarks := u.bookmarks + [blogId]);
    var s1 := users[i := u'];
    BookmarkToggleLower(u.bookmarks, blogId);
    assert ToggleBookmark(users, Some(u), blogId, xhr, referer, true).users == s1 by {
      ToggleBookmarkAt(users, u, i, blogId, xhr, referer);
    }
    assert u'.(bookmarks := BookmarkToggle(u'.bookmarks, blogId)) == u by {
      BookmarkToggleLower(u'.bookmarks, blogId);
      ToggleTwiceAbsent(u.bookmarks, blogId);
    }
    assert ToggleBookmark(s1, Some(u), blogId, xhr, referer, true).users == s1[i := u] by {
      UniqueIdsUpdate(users, i, u');
      ToggleBookmarkAt(s1, u, i, blogId, xhr, referer);
    }
    SeqRestore(users, i, u');
  }

  /**
   * An id written with upper-case hex digits is never found again once
   * stored, since the record keeps its lower-case form: each toggle appends
   * another copy and reports the blog as newly bookmarked.
   */
  lemma {:induction false} BookmarkUpperCase(users: seq<User>, u: User, blogId: string, referer: Option<string>)
    requires UniqueIds(users) && u in users && IsObjectId(blogId) && !Text.NoUpper(blogId)
    requires forall k | 0 <= k < |u.bookmarks| :: Text.NoUpper(u.bookmarks[k])
    ensures var r1 := ToggleBookmark(users, Some(u), blogId, true, referer, true);
      var r2 := ToggleBookmark(r1.users, Some(u), blogId, true, referer, true);
      && r1.reply == Json(200, BookmarkResult(true))
      && r2.reply == Json(200, BookmarkResult(true))
      && CurrentBookmarks(r2.users, u.id) == Some(u.bookmarks + [Cast(blogId).value, Cast(blogId).value])
  {
    var c := Cast(blogId).value;
    var i :| 0 <= i < |users| && users[i] == u;
    var r1 := ToggleBookmark(users, Some(u), blogId, true, referer, true);
    var r2 := ToggleBookmark(r1.users, Some(u), blogId, true, referer, true);
    var v := u.(bookmarks := u.bookmarks + [c, c]);
    assert r1.reply == Json(200, BookmarkResult(true)) && r2.reply == Json(200, BookmarkResult(true)) && r2.users == users[i := v] by {
      UpperNotStored(u.bookmarks, blogId);
      CastChangesUpper(blogId);
      TwoAppends(users, u, i, blogId, referer);
      AppendTwice(u.bookmarks, c);
    }
    BookmarksAfterWrite(users, i, v);
  }

  /** Two toggles of an id that its own cast form never matches append that form twice. */
  lemma {:induction false} TwoAppends(users: seq<User>, caller: User, i: nat, blogId: string, referer: Option<string>)
    requires UniqueIds(users) && i < |users| && users[i].id == caller.id
    requires IsObjectId(blogId) && blogId !in users[i].bookmarks && blogId != Cast(blogId).value
    ensures var c := Cast(blogId).value;
      var r1 := ToggleBookmark(users, Some(caller), blogId, true, referer, true);
      var r2 := ToggleBookmark(r1.users, Some(caller), blogId, true, referer, true);
      && r1.reply == Json(200, BookmarkResult(true))
      && r2.reply == Json(200, BookmarkResult(true))
      && r2.users == users[i := users[i].(bookmarks := users[i].bookmarks + [c] + [c])]
  {
    var c := Cast(blogId).value;
    var u1 := users[i].(bookmarks := users[i].bookmarks + [c]);
    AppendStep(users, caller, i, blogId, referer);
    UniqueIdsUpdate(users, i, u1);
    AppendStep(users[i := u1], caller, i, blogId, referer);
  }

  /** After a record is written into its own slot, its bookmarks are the written ones. */
  lemma {:induction false} BookmarksAfterWrite(users: seq<User>, i: nat, v: User)
    requires UniqueIds(users) && i < |users| && v.id == users[i].id
    ensures CurrentBookmarks(users[i := v], v.id) == Some(v.bookmarks)
  {
    UniqueIdsUpdate(users, i, v);
    assert users[i := v][i] == v;
    FindByIdUnique(users[i := v], v);
  }

  lemma AppendTwice<T>(s: seq<T>, x: T)
    ensures s + [x] + [x] == s + [x, x]
  {
  }

  /** An id with an upper-case digit is none of a list of lower-case ids. */
  lemma UpperNotStored(marks: seq<Id>, blogId: string)
    requires !Text.NoUpper(blogId)
    requires forall k | 0 <= k < |marks| :: Text.NoUpper(marks[k])
    ensures blogId !in marks
  {
  }

  /** A toggle that does not find the id appends its cast form and reports true. */
  lemma {:induction false} AppendStep(users: seq<User>, caller: User, i: nat, blogId: string, referer: Option<string>)
    requires UniqueIds(users) && i < |users| && users[i].id == caller.id
    requires IsObjectId(blogId) && blogId !in users[i].bookmarks
    ensures var r := ToggleBookmark(users, Some(caller), blogId, true, referer, true);
      && r.users == users[i := users[i].(bookmarks := users[i].bookmarks + [Cast(blogId).value])]
      && r.reply == Json(200, BookmarkResult(true))
  {
    ToggleBookmarkAt(users, caller, i, blogId, true, referer);
    FindByIdUnique(users, users[i]);
  }
}

=== FILE: detail.dfy ===
/**
 * The blog detail page of server.js (`GET /blog/:id`): who may see an
 * unpublished blog, and the view counter.
 */
module Detail {
  import opened Wrappers
  import opened Users
  import opened Store
  import opened Http
  import opened Blogs

  /** The visibility rule: published, or the caller is the author. */
  predicate Visible(b: Blog, viewer: Option<User>) {
    b.published || (viewer.Some? && viewer.value.id == b.author)
  }

  /**
   * `GET /blog/:id`. `users` resolves the populated author; `viewer` is
   * `req.user`. A parameter that is no ObjectId makes `findById` throw, and
   * an unpublished blog whose author record is gone makes the author check
   * read a field of null; the catch turns both into a 500.
   */
  function ViewBlog(blogs: map<Id, Blog>, users: seq<User>, viewer: Option<User>, id: string): (r: BlogStep)
    ensures Cast(id).None? ==> r == BlogStep(blogs, Status(500, "Server error"))
    ensures Cast(id).Some? && !Names(blogs, id) ==> r == BlogStep(blogs, Status(404, "Blog not found"))
    ensures r.reply.Render? ==> r.reply.view == "blogDetail"
    ensures r.blogs.Keys == blogs.Keys
    ensures forall k | k in blogs && Cast(id) != Some(k) :: r.blogs[k] == blogs[k]
    ensures Names(blogs, id) ==>
              var b := blogs[Cast(id).value];
              && (r.reply.Render? <==>
                    b.published || (viewer.Some? && FindById(users, b.author).Some? && viewer.value.id == b.author))
              && (r.reply.Render? ==> r.blogs[Cast(id).value] == b.(views := b.views + 1))
              && (!r.reply.Render? ==> r.blogs == blogs)
              && (!Visible(b, viewer) && (viewer.None? || FindById(users, b.author).Some?) ==>
                    r.reply == Status(403, "This blog is private."))
              && (!b.published && viewer.Some? && FindById(users, b.author).None? ==>
                    r.reply == Status(500, "Server error"))
  {
    match Cast(id)
    case None => BlogStep(blogs, Status(500, "Server error"))
    case Some(key) =>
      if key !in blogs then BlogStep(blogs, Status(404, "Blog not found"))
      else
        var b := blogs[key];
        if !b.published && viewer.None? then BlogStep(blogs, Status(403, "This blog is private."))
        else if !b.published && FindById(users, b.author).None? then BlogStep(blogs, Status(500, "Server error"))
        else if !b.published && viewer.value.id != b.author then BlogStep(blogs, Status(403, "This blog is private."))
        else BlogStep(blogs[key := b.(views := b.views + 1)], Render("blogDetail"))
  }

  /**
   * While the author's record exists, a blog renders exactly for the
   * callers the visibility rule admits.
   */
  lemma {:induction false} ViewIffVisible(blogs: map<Id, Blog>, users: seq<User>, viewer: Option<User>, id: string)
    requires Names(blogs, id) && blogs[Cast(id).value].author in set u | u in users :: u.id
    ensures ViewBlog(blogs, users, viewer, id).reply.Render? <==> Visible(blogs[Cast(id).value], viewer)
  {
    var u :| u in users && u.id == blogs[Cast(id).value].author;
    assert FindById(users, blogs[Cast(id).value].author).Some?;
  }

  /** Each admitted view adds exactly one to the counter: `k` views add `k`. */
  function ViewTimes(blogs: map<Id, Blog>, users: seq<User>, viewer: Option<User>, id: string, k: nat): map<Id, Blog>
  {
    if k == 0 then blogs else ViewTimes(ViewBlog(blogs, users, viewer, id).blogs, users, viewer, id, k - 1)
  }

  lemma {:induction false} ViewsCount(blogs: map<Id, Blog>, users: seq<User>, viewer: Option<User>, id: string, k: nat)
    requires Names(blogs, id) && blogs[Cast(id).value].published
    ensures var key := Cast(id).value;
      var r := ViewTimes(blogs, users, viewer, id, k);
      key in r && r[key] == blogs[key].(views := blogs[key].views + k)
  {
    if k > 0 {
      var once := ViewBlog(blogs, users, viewer, id).blogs;
      ViewsCount(once, users, viewer, id, k - 1);
    }
  }
}

=== FILE: federated.dfy ===
/**
 * The Google, Twitter and GitHub strategies of config/passport.js together
 * with their callback routes in routes/auth.js: find the record by provider
 * id (marking it verified), or create a verified one from the profile, then
 * log in and go to "/". The three strategies differ only in the id field
 * and in GitHub's name fallback, so one function takes the provider.
 */
module Federated {
  import opened Wrappers
  import opened Users
  import opened Store
  import opened Session
  import opened Http
  import Auth
  import Text

  /** The part of a provider profile the strategies read. */
  datatype Profile = Profile(
    id: string,
    displayName: Option<string>,
    username: Option<string>,
    emails: seq<string>,
    photos: seq<string>)

  /** `profile.displayName`, or for GitHub `profile.displayName || profile.username`. */
  function ProfileName(p: Provider, prof: Profile): (name: string)
    ensures p != GitHub || Truthy(prof.displayName) ==> name == prof.displayName.GetOr("")
    ensures p == GitHub && !Truthy(prof.displayName) ==> name == prof.username.GetOr("")
  {
    if p == GitHub && !Truthy(prof.displayName) then prof.username.GetOr("")
    else prof.displayName.GetOr("")
  }

  /** `profile.emails?.[0]?.value || ''`. */
  function ProfileEmail(prof: Profile): (email: string)
    ensures |prof.emails| > 0 ==> email == prof.emails[0]
    ensures |prof.emails| == 0 ==> email == ""
  {
    if |prof.emails| > 0 then prof.emails[0] else ""
  }

  /** `profile.photos?.[0]?.value || '/images/default-user.png'`. */
  function ProfilePicture(prof: Profile): (pic: string)
    ensures |prof.photos| > 0 && prof.photos[0] != "" ==> pic == prof.photos[0]
    ensures |prof.photos| == 0 || prof.photos[0] == "" ==> pic == DefaultProfilePic
    ensures pic != ""
  {
    if |prof.photos| > 0 && prof.photos[0] != "" then prof.photos[0] else DefaultProfilePic
  }

  /** The `User.create({...})` argument for a first federated login. */
  function FederatedFields(p: Provider, prof: Profile): Fields {
    Fields(ProfileName(p, prof), ProfileEmail(prof), None, Some(ProfilePicture(prof)),
           Some((p, prof.id)), true, None, None)
  }

  /** The record a first login with `prof` through `p` creates. */
  function NewFederatedUser(id: Id, p: Provider, prof: Profile): (u: User)
    ensures u.id == id && u.emailVerified && u.password.None?
    ensures ProviderId(u, p) == Some(prof.id)
    ensures forall q: Provider | q != p :: ProviderId(u, q).None?
    ensures u.email == Text.LowerStr(ProfileEmail(prof))
    ensures u.name == Text.Trim(ProfileName(p, prof))
    ensures u.profilePic == ProfilePicture(prof)
    ensures u.verificationCode.None? && u.verificationCodeExpires.None?
  {
    NewUser(id, FederatedFields(p, prof))
  }

  /**
   * A provider callback with profile `prof`. `newId` is the id a created
   * record receives; `up` says whether the store's calls succeed. A store
   * error reaches `done(err)` and changes nothing.
   */
  function FederatedLogin(s: seq<User>, c: Ctx, p: Provider, prof: Profile, newId: Id, up: bool): (r: Auth.Step)
    ensures !up ==> r == Auth.Step(s, c, Fail)
    ensures r.reply == Fail ==> r.users == s && r.session == c
    ensures r.reply != Fail ==> r.reply == Redirect("/", None)
    ensures var known := FindByProvider(s, p, prof.id);
      up && known.Some? ==>
        && r.reply != Fail
        && r.session == LogIn(known.value)
        && |r.users| == |s|
        && forall i | 0 <= i < |s| && s[i].id != known.value.id :: r.users[i] == s[i]
    ensures up && FindByProvider(s, p, prof.id).None? ==>
              (r.reply != Fail <==> FindById(s, newId).None?)
              && (r.reply != Fail ==>
                    r.users == s + [NewFederatedUser(newId, p, prof)] && r.session == LogIn(NewFederatedUser(newId, p, prof)))
  {
    if !up then Auth.Step(s, c, Fail)
    else match FindByProvider(s, p, prof.id)
      case Some(u) =>
        if !u.emailVerified then
          var v := u.(emailVerified := true);
          Auth.Step(Save(s, v), LogIn(v), Redirect("/", None))
        else Auth.Step(s, LogIn(u), Redirect("/", None))
      case None =>
        match Insert(s, NewFederatedUser(newId, p, prof), up)
        case Failure(_) => Auth.Step(s, c, Fail)
        case Success(s') => Auth.Step(s', LogIn(s'[|s|]), Redirect("/", None))
  }

  /** A provider login with the store up succeeds: the profile is known, or the new id is free. */
  predicate LoginAdmitted(s: seq<User>, p: Provider, prof: Profile, newId: Id) {
    FindByProvider(s, p, prof.id).Some? || FindById(s, newId).None?
  }

  /**
   * Federated accounts are always verified: after any successful provider
   * login the session names a verified record carrying the provider id,
   * and ids stay unique.
   */
  lemma {:induction false} FederatedAlwaysVerified(s: seq<User>, c: Ctx, p: Provider, prof: Profile, newId: Id, up: bool)
    requires UniqueIds(s)
    ensures var r := FederatedLogin(s, c, p, prof, newId, up);
      r.reply != Fail ==>
        && UniqueIds(r.users)
        && CurrentUser(r.users, r.session).Some?
        && CurrentUser(r.users, r.session).value.emailVerified
        && ProviderId(CurrentUser(r.users, r.session).value, p) == Some(prof.id)
  {
    var r := FederatedLogin(s, c, p, prof, newId, up);
    if r.reply != Fail {
      match FindByProvider(s, p, prof.id)
      case Some(u) =>
        var v := u.(emailVerified := true);
        var i :| 0 <= i < |s| && s[i] == u;
        if u.emailVerified {
          LogInRoundTrip(s, u);
        } else {
          assert r.users[i] == v;
          LogInRoundTrip(r.users, v);
        }
      case None =>
        var u := NewFederatedUser(newId, p, prof);
        assert r.users[|s|] == u;
        LogInRoundTrip(r.users, u);
    }
  }

  /** A login that finds the record at position `i` marks it verified in place. */
  lemma FederatedKnownAt(s: seq<User>, c: Ctx, p: Provider, prof: Profile, newId: Id, i: nat)
    requires UniqueIds(s) && i < |s| && ProviderId(s[i], p) == Some(prof.id)
    requires forall j | 0 <= j < i :: ProviderId(s[j], p) != Some(prof.id)
    ensures var w := s[i].(emailVerified := true);
      var r := FederatedLogin(s, c, p, prof, newId, true);
      r.users == s[i := w] && r.session == LogIn(w) && FindByProvider(r.users, p, prof.id) == Some(w)
  {
    var w := s[i].(emailVerified := true);
    FindByProviderAt(s, p, prof.id, i);
    SaveAt(s, i, w);
    if s[i].emailVerified {
      assert s[i := w] == s;
    }
    FindByProviderAt(s[i := w], p, prof.id, i);
  }

  /**
   * After a successful provider login, a lookup by the same provider id
   * finds a verified record, and it is the one the session names.
   */
  lemma {:induction false} FederatedFindsLoggedIn(s: seq<User>, c: Ctx, p: Provider, prof: Profile, newId: Id)
    requires UniqueIds(s) && LoginAdmitted(s, p, prof, newId)
    ensures var r := FederatedLogin(s, c, p, prof, newId, true);
      var found := FindByProvider(r.users, p, prof.id);
      found.Some? && found.value.emailVerified && r.session == LogIn(found.value)
  {
    match FindByProvider(s, p, prof.id)
    case Some(u) =>
      var i :| 0 <= i < |s| && s[i] == u && forall j | 0 <= j < i :: ProviderId(s[j], p) != Some(prof.id);
      FederatedKnownAt(s, c, p, prof, newId, i);
    case None =>
      var r := FederatedLogin(s, c, p, prof, newId, true);
      var w := NewFederatedUser(newId, p, prof);
      assert r.users[|s|] == w;
      FindByProviderAt(r.users, p, prof.id, |s|);
  }

  /** A login that finds an already verified record writes nothing. */
  lemma FederatedKnownVerified(s: seq<User>, c: Ctx, p: Provider, prof: Profile, newId: Id, u: User)
    requires FindByProvider(s, p, prof.id) == Some(u) && u.emailVerified
    ensures FederatedLogin(s, c, p, prof, newId, true) == Auth.Step(s, LogIn(u), Redirect("/", None))
  {
  }

  /**
   * Logging in twice with the same profile: the second login finds the
   * record the first one left, creates nothing, writes nothing, and logs
   * in as the same record.
   */
  lemma {:induction false} FederatedRepeat(s: seq<User>, c: Ctx, p: Provider, prof: Profile, newId: Id, c2: Ctx, newId2: Id)
    requires UniqueIds(s) && LoginAdmitted(s, p, prof, newId)
    ensures var r := FederatedLogin(s, c, p, prof, newId, true);
      var r2 := FederatedLogin(r.users, c2, p, prof, newId2, true);
      && r2.users == r.users
      && r2.reply == Redirect("/", None)
      && r2.session.user == r.session.user
  {
    FederatedFindsLoggedIn(s, c, p, prof, newId);
    var r := FederatedLogin(s, c, p, prof, newId, true);
    FederatedKnownVerified(r.users, c2, p, prof, newId2, FindByProvider(r.users, p, prof.id).value);
  }

  /**
   * A record created by a provider login has no password, so a local login
   * that finds it by address ends in the strategy's error path.
   */
  lemma {:induction false} FederatedNoLocalPassword(s: seq<User>, c: Ctx, p: Provider, prof: Profile, newId: Id, password: string)
    requires FindByProvider(s, p, prof.id).None? && FindById(s, newId).None?
    requires ProfileEmail(prof) != "" && password != ""
    requires FindByEmail(s, ProfileEmail(prof)).None?
    ensures var r := FederatedLogin(s, c, p, prof, newId, true);
      Auth.LocalStrategy(r.users, ProfileEmail(prof), password, true) == Auth.Errored
  {
    var r := FederatedLogin(s, c, p, prof, newId, true);
    var u := NewFederatedUser(newId, p, prof);
    assert r.users == s + [u];
    assert FindByEmail(r.users, ProfileEmail(prof)) == Some(u);
  }
}

=== FILE: gate.dfy ===
/**
 * middleware/checkVerified.js: the gate in front of pages that need a
 * verified account. It reloads `req.user` from the store before deciding.
 */
module Gate {
  import opened Wrappers
  import opened Users
  import opened Store
  import opened Session
  import opened Http
  import Auth

  const VerifyNotice := Redirect("/verify-email", Some(Flash(InfoFlash, "Please verify your email to access this page.")))

  /**
   * The gate for a request whose deserialized user is `reqUser`; `up` says
   * whether the reload succeeds. Nothing is ever written.
   */
  function CheckVerified(s: seq<User>, reqUser: Option<User>, up: bool): (r: Reply)
    ensures reqUser.None? ==> r == Redirect("/login", None)
    ensures reqUser.Some? && !up ==> r == Redirect("/login", None)
    ensures r == Proceed <==>
              reqUser.Some? && up && FindById(s, reqUser.value.id).Some? && FindById(s, reqUser.value.id).value.emailVerified
    ensures reqUser.Some? && up && r != Proceed ==> r == VerifyNotice
  {
    if reqUser.None? then Redirect("/login", None)
    else if !up then Redirect("/login", None)
    else match FindById(s, reqUser.value.id)
      case Some(u) => if u.emailVerified then Proceed else VerifyNotice
      case None => VerifyNotice
  }

  /**
   * With unique ids, a logged-in caller passes exactly when its stored
   * record is verified.
   */
  lemma {:induction false} GateIffVerified(s: seq<User>, c: Ctx)
    requires UniqueIds(s) && CurrentUser(s, c).Some?
    ensures CheckVerified(s, CurrentUser(s, c), true) == Proceed <==> CurrentUser(s, c).value.emailVerified
  {
    FindByIdUnique(s, CurrentUser(s, c).value);
  }

  /**
   * Local login never lets an unverified account through the gate: whoever
   * a login binds the session to passes it.
   */
  lemma {:induction false} LoginPassesGate(s: seq<User>, c: Ctx, email: string, password: string, up: bool)
    requires UniqueIds(s)
    ensures var r := Auth.Login(s, c, email, password, up);
      r.session.user != c.user ==> CheckVerified(s, CurrentUser(s, r.session), true) == Proceed
  {
    var r := Auth.Login(s, c, email, password, up);
    if r.session.user != c.user {
      var u :| u in s && u.emailVerified && r.session.user == Some(u.id);
      FindByIdUnique(s, u);
    }
  }

  /**
   * The route-local helper of routes/auth.js and this middleware agree on
   * a logged-in caller: one lets the request through exactly when the other
   * does. Where they refuse, the helper also ends the session.
   */
  lemma {:induction false} RequireVerifiedAgrees(s: seq<User>, c: Ctx)
    requires UniqueIds(s) && CurrentUser(s, c).Some?
    ensures var u := CurrentUser(s, c);
      && (Auth.RequireVerified(s, c, u).reply == Proceed <==> CheckVerified(s, u, true) == Proceed)
      && (Auth.RequireVerified(s, c, u).reply != Proceed ==> Auth.RequireVerified(s, c, u).session == LoggedOut)
  {
    FindByIdUnique(s, CurrentUser(s, c).value);
  }
}

=== FILE: http.dfy ===
/** What a route handler sends back: the parts of `res` and `next` the model observes. */
module Http {
  import opened Wrappers

  datatype FlashKind = ErrorFlash | InfoFlash | SuccessFlash

  /** A `req.flash(kind, text)` message shown on the next page. */
  datatype Flash = Flash(kind: FlashKind, text: string)

  /** The body of a JSON reply. */
  datatype JsonBody =
    | LikeResult(liked: bool, likesCount: nat)
    | BookmarkResult(bookmarked: bool)
    | ErrorMessage(message: string)

  datatype Reply =
    | Redirect(to: string, flash: Option<Flash>)  // res.redirect(to)
    | Proceed                                     // next()
    | Fail                                        // next(err), or an uncaught error
    | Status(code: nat, body: string)             // res.status(code).send(body)
    | Json(code: nat, json: JsonBody)             // res.status(code).json(...)
    | Render(view: string)                        // res.render(view, ...)
}

=== FILE: lifecycle.dfy ===
/**
 * Properties of the verification lifecycle that span several requests:
 * signup followed by login, verify or resend, and verification replay.
 */
module Lifecycle {
  import opened Wrappers
  import opened Users
  import opened Store
  import opened Session
  import opened Http
  import opened Auth

  /** After a successful signup, the pending id names the new, unverified record. */
  lemma {:induction false} SignupPending(s: seq<User>, c: Ctx, f: SignupForm, t: int, n: int, newId: Id)
    requires 100000 <= n <= 999999
    requires UniqueIds(s) && SignupAdmitted(s, f) && FindById(s, newId).None?
    ensures var r := Signup(s, c, f, t, n, newId, true);
      && |r.users| == |s| + 1
      && UniqueIds(r.users)
      && r.users == s + [r.users[|s|]]
      && PendingUser(r.users, r.session) == Some(r.users[|s|])
  {
    var r := Signup(s, c, f, t, n, newId, true);
    var u := r.users[|s|];
    assert r.users == s + [u];
    var nu := NewUser(newId, SignupFields(f, IssueCode(n), t));
    assert Insert(s, nu, true).Success?;
    FindByIdUnique(r.users, u);
  }

  /**
   * Logging in right after signing up, with the same address and a
   * non-empty password, only sets the pending id: nobody is logged in.
   */
  lemma {:induction false} SignupThenLogin(s: seq<User>, c: Ctx, f: SignupForm, t: int, n: int, newId: Id, c2: Ctx)
    requires 100000 <= n <= 999999
    requires SignupAdmitted(s, f) && FindById(s, newId).None?
    requires f.email != "" && f.password != ""
    ensures var r := Signup(s, c, f, t, n, newId, true);
      Login(r.users, c2, f.email, f.password, true)
        == Step(r.users, c2.(pending := Some(newId)),
                Redirect("/verify-email", Some(Flash(InfoFlash, "Please verify your email to continue."))))
  {
    var r := Signup(s, c, f, t, n, newId, true);
    var u := r.users[|s|];
    assert r.users == s + [u];
    assert FindByEmail(r.users, f.email) == Some(u);
    assert ComparePassword(u, f.password) == Some(true);
  }

  /**
   * Right after signup at time `t` with code `n`, verification succeeds
   * exactly for that code strictly before `t` + 10 minutes, and then the
   * session is logged in as the now verified record with its code cleared.
   * A refused attempt changes nothing.
   */
  lemma {:induction false} SignupThenVerify(s: seq<User>, c: Ctx, f: SignupForm, t: int, n: int, newId: Id, code: Option<string>, now: int)
    requires 100000 <= n <= 999999
    requires UniqueIds(s) && SignupAdmitted(s, f) && FindById(s, newId).None?
    ensures var r := Signup(s, c, f, t, n, newId, true);
      var v := VerifyEmail(r.users, r.session, code, now, true);
      && (v.session.pending.None? <==> code == Some(IssueCode(n)) && now < t + CodeLifetimeMs)
      && (v.session.pending.None? ==>
            && CurrentUser(v.users, v.session).Some?
            && CurrentUser(v.users, v.session).value.id == newId
            && CurrentUser(v.users, v.session).value.emailVerified
            && CurrentUser(v.users, v.session).value.verificationCode.None?)
      && (v.session.pending.Some? ==> v.users == r.users && v.session == r.session)
  {
    SignupPending(s, c, f, t, n, newId);
    var r := Signup(s, c, f, t, n, newId, true);
    var u := r.users[|s|];
    var v := VerifyEmail(r.users, r.session, code, now, true);
    if CodeAccepted(u, code, now) {
      VerifiedIsCurrent(r.users, u);
    }
  }

  /** Saving the verified copy of a stored record makes it the logged-in record. */
  lemma {:induction false} VerifiedIsCurrent(s: seq<User>, u: User)
    requires UniqueIds(s) && u in s
    ensures CurrentUser(Save(s, MarkVerified(u)), Ctx(None, Some(u.id))) == Some(MarkVerified(u))
  {
    var s' := Save(s, MarkVerified(u));
    var i :| 0 <= i < |s| && s[i] == u;
    assert s'[i] == MarkVerified(u);
    FindByIdUnique(s', MarkVerified(u));
  }

  /**
   * A code works once. After an accepted verification the pending id is
   * gone, so resubmitting is sent back to /login; and a later session that
   * names the same record again is refused whatever code it submits.
   */
  lemma {:induction false} VerifyOnlyOnce(s: seq<User>, c: Ctx, code: Option<string>, now: int,
                                          c2: Ctx, code2: Option<string>, now2: int)
    requires UniqueIds(s)
    requires PendingUser(s, c).Some? && CodeAccepted(PendingUser(s, c).value, code, now)
    requires c2.pending == c.pending
    ensures var r := VerifyEmail(s, c, code, now, true);
      && VerifyEmail(r.users, r.session, code2, now2, true) == Step(r.users, r.session, SessionExpired)
      && VerifyEmail(r.users, c2, code2, now2, true).users == r.users
      && VerifyEmail(r.users, c2, code2, now2, true).session == c2
  {
    var u := PendingUser(s, c).value;
    VerifiedIsCurrent(s, u);
    var r := VerifyEmail(s, c, code, now, true);
    assert PendingUser(r.users, c2) == Some(MarkVerified(u));
  }

  /**
   * For a stored pending record, a resend rewrites the collection exactly
   * when the cooldown has passed.
   */
  lemma {:induction false} ResendChanges(s: seq<User>, c: Ctx, now: int, n: int)
    requires 100000 <= n <= 999999
    requires UniqueIds(s) && PendingUser(s, c).Some?
    ensures ResendCode(s, c, now, n, true).users == s <==> !ResendAllowed(PendingUser(s, c).value, now)
  {
    var u := PendingUser(s, c).value;
    if ResendAllowed(u, now) {
      var i :| 0 <= i < |s| && s[i] == u;
      var q := ResendCode(s, c, now, n, true);
      assert q.users[i] == Reissue(u, n, now);
      assert Reissue(u, n, now) != u;
    }
  }

  /** For a stored pending record, verification clears the pending id exactly when the code is accepted. */
  lemma VerifyClearsPending(s: seq<User>, c: Ctx, code: Option<string>, now: int)
    requires PendingUser(s, c).Some?
    ensures VerifyEmail(s, c, code, now, true).session.pending.None? <==> CodeAccepted(PendingUser(s, c).value, code, now)
  {
  }

  /**
   * Right after signup at time `t`, a resend is refused exactly while less
   * than 2 minutes have passed.
   */
  lemma {:induction false} SignupThenResend(s: seq<User>, c: Ctx, f: SignupForm, t: int, n: int, newId: Id, now: int, m: int)
    requires 100000 <= n <= 999999 && 100000 <= m <= 999999
    requires UniqueIds(s) && SignupAdmitted(s, f) && FindById(s, newId).None?
    ensures var r := Signup(s, c, f, t, n, newId, true);
      ResendCode(r.users, r.session, now, m, true).users == r.users <==> now < t + ResendCooldownMs
  {
    SignupPending(s, c, f, t, n, newId);
    var r := Signup(s, c, f, t, n, newId, true);
    assert IssuedAt(r.users[|s|]) == t;
    ResendChanges(r.users, r.session, now, m);
  }

  /**
   * After a resend at time `t` with code `m`, verification accepts exactly
   * `m` strictly before `t` + 10 minutes, and a further resend is refused
   * exactly while less than 2 minutes have passed since `t`.
   */
  lemma {:induction false} ResendThenVerify(s: seq<User>, c: Ctx, t: int, m: int, code: Option<string>, now: int, m2: int)
    requires 100000 <= m <= 999999 && 100000 <= m2 <= 999999
    requires UniqueIds(s) && PendingUser(s, c).Some? && ResendAllowed(PendingUser(s, c).value, t)
    ensures var q := ResendCode(s, c, t, m, true);
      && (var v := VerifyEmail(q.users, q.session, code, now, true);
          v.session.pending.None? <==> code == Some(IssueCode(m)) && now < t + CodeLifetimeMs)
      && (ResendCode(q.users, q.session, now, m2, true).users == q.users <==> now < t + ResendCooldownMs)
  {
    var u := PendingUser(s, c).value;
    var q := ResendCode(s, c, t, m, true);
    var v := Reissue(u, m, t);
    assert UniqueIds(q.users) && PendingUser(q.users, q.session) == Some(v) by {
      var i :| 0 <= i < |s| && s[i] == u;
      assert q.users == s[i := v];
      UniqueIdsUpdate(s, i, v);
      FindByIdUnique(q.users, v);
    }
    assert IssuedAt(v) == t;
    VerifyClearsPending(q.users, q.session, code, now);
    ResendChanges(q.users, q.session, now, m2);
  }
}

=== FILE: profile.dfy ===
/**
 * routes/profile.js: the caller's own profile update. The route writes
 * with `findByIdAndUpdate`, which applies the schema's setters but never
 * runs the pre-save hook, so a submitted password is stored as typed.
 * `UpdateProfile` is the route as written; `UpdateProfileHashed` is the
 * same update with the password hashed as the pre-save hook would.
 */
module Profile {
  import opened Wrappers
  import opened Users
  import opened Store
  import opened Http
  import Auth
  import Text

  /** The fields of the profile form. */
  datatype ProfileForm = ProfileForm(name: string, email: string, password: Option<string>)

  datatype ProfileStep = ProfileStep(users: seq<User>, reply: Reply)

  function PicturePath(file: string): string { "/uploads/profilePics/" + file }

  const Updated := Redirect("/profile", Some(Flash(SuccessFlash, "Profile updated successfully")))
  const UpdateFailed := Redirect("/profile", Some(Flash(ErrorFlash, "Error updating profile")))

  /**
   * The update of one record: name and email always, the password only
   * when a non-empty one was submitted (stored as `stored(p)`), the
   * picture only when a file came with the form.
   */
  function Apply(u: User, form: ProfileForm, upload: Option<string>, stored: string -> string): (v: User)
    ensures v.name == Text.Trim(form.name) && v.email == Text.LowerStr(form.email)
    ensures v.password == (if Truthy(form.password) then Some(stored(form.password.value)) else u.password)
    ensures v.profilePic == (if upload.Some? then PicturePath(upload.value) else u.profilePic)
    ensures v == u.(name := v.name, email := v.email, password := v.password, profilePic := v.profilePic)
  {
    u.(name := Text.Trim(form.name), email := Text.LowerStr(form.email),
       password := if Truthy(form.password) then Some(stored(form.password.value)) else u.password,
       profilePic := if upload.Some? then PicturePath(upload.value) else u.profilePic)
  }

  /** `User.findByIdAndUpdate(req.user._id, updateData)`: only the caller's record changes. */
  function UpdateById(users: seq<User>, id: Id, form: ProfileForm, upload: Option<string>, stored: string -> string): (r: seq<User>)
    ensures |r| == |users|
    ensures forall i | 0 <= i < |users| && users[i].id != id :: r[i] == users[i]
    ensures forall i | 0 <= i < |users| && users[i].id == id :: r[i] == Apply(users[i], form, upload, stored)
  {
    seq(|users|, i requires 0 <= i < |users| =>
      if users[i].id == id then Apply(users[i], form, upload, stored) else users[i])
  }

  /** What the route stores as the password: the submitted text itself. */
  function AsTyped(p: string): string { p }

  /** What the pre-save hook would store: the hash. */
  function Hashed(p: string): string { Hash(p) }

  /** `POST /profile`, as written. */
  function UpdateProfile(users: seq<User>, caller: User, form: ProfileForm, upload: Option<string>, up: bool): (r: ProfileStep)
    ensures !up ==> r == ProfileStep(users, UpdateFailed)
    ensures up ==> r.reply == Updated
    ensures |r.users| == |users|
    ensures forall i | 0 <= i < |users| && users[i].id != caller.id :: r.users[i] == users[i]
    ensures up ==> forall i | 0 <= i < |users| && users[i].id == caller.id ::
              && r.users[i].name == Text.Trim(form.name) && r.users[i].email == Text.LowerStr(form.email)
              && (Truthy(form.password) ==> r.users[i].password == form.password)
              && (!Truthy(form.password) ==> r.users[i].password == users[i].password)
              && r.users[i].profilePic == (if upload.Some? then PicturePath(upload.value) else users[i].profilePic)
  {
    if !up then ProfileStep(users, UpdateFailed)
    else ProfileStep(UpdateById(users, caller.id, form, upload, AsTyped), Updated)
  }

  /** `POST /profile` with the password hashed before it is stored. */
  function UpdateProfileHashed(users: seq<User>, caller: User, form: ProfileForm, upload: Option<string>, up: bool): (r: ProfileStep)
    ensures !up ==> r == ProfileStep(users, UpdateFailed)
    ensures up ==> r.reply == Updated
    ensures |r.users| == |users|
    ensures forall i | 0 <= i < |users| && users[i].id != caller.id :: r.users[i] == users[i]
    ensures up ==> forall i | 0 <= i < |users| && users[i].id == caller.id ::
              && r.users[i].name == Text.Trim(form.name) && r.users[i].email == Text.LowerStr(form.email)
              && (Truthy(form.password) ==> r.users[i].password == Some(Hash(form.password.value)))
              && (!Truthy(form.password) ==> r.users[i].password == users[i].password)
              && r.users[i].profilePic == (if upload.Some? then PicturePath(upload.value) else users[i].profilePic)
  {
    if !up then ProfileStep(users, UpdateFailed)
    else ProfileStep(UpdateById(users, caller.id, form, upload, Hashed), Updated)
  }

  /** The lookup by address finds the one record carrying it. */
  lemma FindByEmailOnly(s: seq<User>, i: nat, email: string)
    requires i < |s| && s[i].email == Text.LowerStr(email)
    requires forall j | 0 <= j < |s| && j != i :: s[j].email != Text.LowerStr(email)
    ensures FindByEmail(s, email) == Some(s[i])
  {
    var r := FindByEmail(s, email);
    var k :| 0 <= k < |s| && s[k] == r.value;
  }

  /**
   * As written, a new password locks its owner out: a local login with the
   * address and password just submitted is refused with 'Password
   * incorrect', since the record holds the password itself and the check
   * compares against its hash.
   */
  lemma {:induction false} ProfilePasswordLocksOut(users: seq<User>, caller: User, form: ProfileForm, upload: Option<string>)
    requires UniqueIds(users) && caller in users
    requires Truthy(form.password) && form.email != ""
    requires forall j | 0 <= j < |users| && users[j].id != caller.id :: users[j].email != Text.LowerStr(form.email)
    ensures var r := UpdateProfile(users, caller, form, upload, true);
      Auth.LocalStrategy(r.users, form.email, form.password.value, true) == Auth.Rejected("Password incorrect")
  {
    var r := UpdateProfile(users, caller, form, upload, true);
    var i :| 0 <= i < |users| && users[i] == caller;
    forall j | 0 <= j < |users| && j != i ensures r.users[j].email != Text.LowerStr(form.email) {
      assert users[j].id != caller.id;
    }
    FindByEmailOnly(r.users, i, form.email);
    assert r.users[i].password == form.password;
    assert Hash(form.password.value) != form.password.value;
  }

  /**
   * With the password hashed, the address and password just submitted log
   * the caller in as the updated record.
   */
  lemma {:induction false} ProfileHashedLogin(users: seq<User>, caller: User, form: ProfileForm, upload: Option<string>)
    requires UniqueIds(users) && caller in users
    requires Truthy(form.password) && form.email != ""
    requires forall j | 0 <= j < |users| && users[j].id != caller.id :: users[j].email != Text.LowerStr(form.email)
    ensures var r := UpdateProfileHashed(users, caller, form, upload, true);
      && (exists i | 0 <= i < |r.users| :: r.users[i].id == caller.id)
      && Auth.LocalStrategy(r.users, form.email, form.password.value, true).Authenticated?
      && Auth.LocalStrategy(r.users, form.email, form.password.value, true).user.id == caller.id
  {
    var r := UpdateProfileHashed(users, caller, form, upload, true);
    var i :| 0 <= i < |users| && users[i] == caller;
    forall j | 0 <= j < |users| && j != i ensures r.users[j].email != Text.LowerStr(form.email) {
      assert users[j].id != caller.id;
    }
    FindByEmailOnly(r.users, i, form.email);
    assert r.users[i].password == Some(Hash(form.password.value));
  }
}

=== FILE: seqs.dfy ===
/**
 * The array operations the routes perform on id lists: `filter`,
 * `findIndex`, `splice(i, 1)`, `push`, and the two toggles built from them.
 */
module Seqs {

  /** No element occurs twice. */
  predicate NoDup<T(==)>(s: seq<T>) {
    forall i, j | 0 <= i < j < |s| :: s[i] != s[j]
  }

  /** `s.filter(keep)`: the elements that pass, in order. */
  function Filter<T>(s: seq<T>, keep: T -> bool): (r: seq<T>)
    ensures |r| <= |s|
    ensures forall i | 0 <= i < |r| :: keep(r[i]) && r[i] in s
    ensures forall x | x in s && keep(x) :: x in r
    ensures (forall i | 0 <= i < |s| :: keep(s[i])) ==> r == s
  {
    if |s| == 0 then []
    else
      var rest := Filter(s[1..], keep);
      if keep(s[0]) then
        assert ([s[0]] + rest)[1..] == rest;
        [s[0]] + rest
      else rest
  }

  /** Filtering a concatenation filters each part: the kept elements keep their order. */
  lemma {:induction false} FilterAppend<T>(a: seq<T>, b: seq<T>, keep: T -> bool)
    ensures Filter(a + b, keep) == Filter(a, keep) + Filter(b, keep)
  {
    if |a| == 0 {
      assert a + b == b;
    } else {
      assert (a + b)[1..] == a[1..] + b;
      FilterAppend(a[1..], b, keep);
    }
  }

  /** Filtering keeps exactly the passing copies of every value. */
  lemma {:induction false} FilterCount<T>(s: seq<T>, keep: T -> bool, x: T)
    ensures multiset(Filter(s, keep))[x] == if keep(x) then multiset(s)[x] else 0
  {
    if |s| > 0 {
      FilterCount(s[1..], keep, x);
      assert s == [s[0]] + s[1..];
    }
  }

  /** `s.filter(y => y !== x)`: every copy of `x` taken out, the rest in order. */
  function RemoveAll<T(==)>(s: seq<T>, x: T): (r: seq<T>)
    ensures |r| <= |s|
    ensures x !in r
    ensures forall y | y in r :: y in s
    ensures x !in s ==> r == s
  {
    if |s| == 0 then []
    else
      var rest := RemoveAll(s[1..], x);
      if s[0] == x then rest
      else
        assert ([s[0]] + rest)[1..] == rest;
        [s[0]] + rest
  }

  lemma {:induction false} RemoveAllAppend<T>(a: seq<T>, b: seq<T>, x: T)
    ensures RemoveAll(a + b, x) == RemoveAll(a, x) + RemoveAll(b, x)
  {
    if |a| == 0 {
      assert a + b == b;
    } else {
      assert (a + b)[1..] == a[1..] + b;
      RemoveAllAppend(a[1..], b, x);
    }
  }

  /** Removing `x` keeps every copy of every other value. */
  lemma {:induction false} RemoveAllCount<T>(s: seq<T>, x: T, y: T)
    ensures multiset(RemoveAll(s, x))[y] == if y == x then 0 else multiset(s)[y]
  {
    if |s| > 0 {
      RemoveAllCount(s[1..], x, y);
      assert s == [s[0]] + s[1..];
    }
  }

  lemma {:induction false} RemoveAllNoDup<T>(s: seq<T>, x: T)
    requires NoDup(s)
    ensures NoDup(RemoveAll(s, x))
  {
    if |s| > 0 {
      RemoveAllNoDup(s[1..], x);
      assert s[0] !in s[1..];
    }
  }

  /** `s.findIndex(matches)`: the first matching position, or -1. */
  function FindIndex<T>(s: seq<T>, matches: T -> bool): (i: int)
    ensures -1 <= i < |s|
    ensures i == -1 <==> forall j | 0 <= j < |s| :: !matches(s[j])
    ensures i >= 0 ==> matches(s[i]) && forall j | 0 <= j < i :: !matches(s[j])
  {
    if |s| == 0 then -1
    else if matches(s[0]) then 0
    else
      var k := FindIndex(s[1..], matches);
      if k == -1 then -1 else k + 1
  }

  /** `s.findIndex(y => y === x)`. */
  function IndexOf<T(==)>(s: seq<T>, x: T): (i: int)
    ensures -1 <= i < |s|
    ensures i == -1 <==> x !in s
    ensures i >= 0 ==> s[i] == x && x !in s[..i]
  {
    FindIndex(s, (y: T) => y == x)
  }

  /** `s.splice(i, 1)`: the element at `i` taken out. */
  function RemoveAt<T>(s: seq<T>, i: nat): (r: seq<T>)
    requires i < |s|
    ensures |r| == |s| - 1
    ensures forall j | 0 <= j < i :: r[j] == s[j]
    ensures forall j | i <= j < |r| :: r[j] == s[j + 1]
  {
    s[..i] + s[i + 1..]
  }

  lemma RemoveAtCount<T>(s: seq<T>, i: nat)
    requires i < |s|
    ensures multiset(RemoveAt(s, i)) == multiset(s) - multiset{s[i]}
  {
    assert s == s[..i] + [s[i]] + s[i + 1..];
  }

  /**
   * Toggle by removing every copy: when `x` is present all copies go,
   * otherwise it is appended.
   */
  function ToggleAll<T(==)>(s: seq<T>, x: T): (r: seq<T>)
    ensures x in r <==> x !in s
    ensures x in s ==> r == RemoveAll(s, x)
    ensures x !in s ==> r == s + [x]
  {
    if x in s then RemoveAll(s, x) else s + [x]
  }

  /**
   * Toggle by removing the first copy (`findIndex` then `splice`): when
   * `x` is present its first copy goes, otherwise it is appended.
   */
  function ToggleFirst<T(==)>(s: seq<T>, x: T): (r: seq<T>)
    ensures x in s ==> |r| == |s| - 1 && multiset(r) == multiset(s) - multiset{x}
    ensures x in s ==> r == RemoveAt(s, IndexOf(s, x))
    ensures x !in s ==> r == s + [x]
  {
    var i := IndexOf(s, x);
    if i > -1 then
      RemoveAtCount(s, i);
      RemoveAt(s, i)
    else s + [x]
  }

  /** Every value other than `x` keeps its number of copies under either toggle. */
  lemma {:induction false} TogglesKeepOthers<T>(s: seq<T>, x: T, y: T)
    requires y != x
    ensures multiset(ToggleAll(s, x))[y] == multiset(s)[y]
    ensures multiset(ToggleFirst(s, x))[y] == multiset(s)[y]
  {
    if x in s {
      RemoveAllCount(s, x, y);
    }
  }

  /** On a list without repeats the two toggles agree. */
  lemma {:induction false} ToggleFirstIsToggleAll<T>(s: seq<T>, x: T)
    requires NoDup(s)
    ensures ToggleFirst(s, x) == ToggleAll(s, x)
  {
    if x in s {
      var i := IndexOf(s, x);
      var a, b := s[..i], s[i + 1..];
      assert s == a + [x] + b;
      assert x !in b by {
        forall j | 0 <= j < |b| ensures b[j] != x {
          assert b[j] == s[i + 1 + j];
        }
      }
      assert RemoveAll([x], x) == [];
      RemoveAllAppend(a + [x], b, x);
      RemoveAllAppend(a, [x], x);
    }
  }

  /** A toggle keeps a list free of repeats, and its membership flips. */
  lemma {:induction false} ToggleFirstNoDup<T>(s: seq<T>, x: T)
    requires NoDup(s)
    ensures NoDup(ToggleFirst(s, x))
    ensures x in ToggleFirst(s, x) <==> x !in s
  {
    ToggleFirstIsToggleAll(s, x);
    if x in s {
      RemoveAllNoDup(s, x);
    }
  }

  /** Toggling an absent value twice restores the list. */
  lemma {:induction false} ToggleTwiceAbsent<T>(s: seq<T>, x: T)
    requires x !in s
    ensures ToggleAll(ToggleAll(s, x), x) == s
    ensures ToggleFirst(ToggleFirst(s, x), x) == s
  {
    var t := s + [x];
    RemoveAllAppend(s, [x], x);
    assert RemoveAll([x], x) == [];
    assert t[|s|] == x && t[..|s|] == s;
    assert IndexOf(t, x) == |s|;
    assert RemoveAt(t, |s|) == s;
  }

  /** Writing back the old value undoes an update. */
  lemma SeqRestore<T>(s: seq<T>, i: nat, v: T)
    requires i < |s|
    ensures s[i := v][i := s[i]] == s
  {
  }

  lemma MapRestore<K, V>(m: map<K, V>, k: K, v: V)
    requires k in m
    ensures m[k := v][k := m[k]] == m
  {
  }

  lemma MapSame<K, V>(m: map<K, V>, k: K)
    requires k in m
    ensures m[k := m[k]] == m
  {
  }
}

=== FILE: session.dfy ===
/**
 * The per-caller session of the authentication routes and config/passport.js:
 * the pending-verification id `req.session.userId`, and the id passport
 * serializes on login and resolves back into `req.user` on each request.
 */
module Session {
  import opened Wrappers
  import opened Users
  import opened Store

  /** `pending` is `req.session.userId`; `user` is passport's serialized id. */
  datatype Ctx = Ctx(pending: Option<Id>, user: Option<Id>)

  /** `serializeUser`: the session keeps only the record's id. */
  function SerializeUser(u: User): (id: Id)
    ensures id == u.id
  {
    u.id
  }

  /** `deserializeUser`: the record with that id, or null when there is none. */
  function DeserializeUser(s: seq<User>, id: Id): (r: Option<User>)
    ensures r.Some? ==> r.value in s && r.value.id == id
    ensures r.None? <==> forall i | 0 <= i < |s| :: s[i].id != id
  {
    FindById(s, id)
  }

  /** `req.user`: the logged-in record, if the session names one that still exists. */
  function CurrentUser(s: seq<User>, c: Ctx): (r: Option<User>)
    ensures r.Some? ==> c.user == Some(r.value.id) && r.value in s
    ensures r.None? <==> c.user.None? || forall i | 0 <= i < |s| :: s[i].id != c.user.value
  {
    if c.user.None? then None else DeserializeUser(s, c.user.value)
  }

  /**
   * `req.logIn(user)`: the callback form of `req.logout` the routes use is
   * the passport API that regenerates the session on login and logout
   * (without `keepSessionInfo`), so a fresh session is bound to the
   * record's id and any earlier pending id is gone.
   */
  function LogIn(u: User): (r: Ctx)
    ensures r.user == Some(u.id) && r.pending.None?
  {
    Ctx(None, Some(SerializeUser(u)))
  }

  /** The session after `req.logout(cb)`: regenerated, so it names nobody and holds no pending id. */
  const LoggedOut := Ctx(None, None)

  /** Serializing then deserializing gives back the logged-in record. */
  lemma LogInRoundTrip(s: seq<User>, u: User)
    requires UniqueIds(s) && u in s
    ensures CurrentUser(s, LogIn(u)) == Some(u)
  {
    FindByIdUnique(s, u);
  }
}

=== FILE: slug.dfy ===
/**
 * The admin routes' `slugify` helper (routes/admin.js): lower-case, trim,
 * each run of white space to one '-', drop everything but `\w` and '-',
 * then each run of hyphens to one '-'.
 */
module Slug {
  import opened Text

  /** The characters a slug may contain: lower-case letters, digits, '_' and '-'. */
  predicate IsSlugChar(c: char) { IsLower(c) || IsDigit(c) || c == '_' || c == '-' }

  predicate NoDoubleHyphen(s: string) {
    forall i | 0 <= i < |s| - 1 :: !(s[i] == '-' && s[i + 1] == '-')
  }

  /** A well-formed slug: slug characters only and never "--". */
  predicate IsSlug(s: string) {
    (forall i | 0 <= i < |s| :: IsSlugChar(s[i])) && NoDoubleHyphen(s)
  }

  /** The `\w` characters of `s`, in order. */
  function WordChars(s: string): string {
    if |s| == 0 then "" else (if IsWordChar(s[0]) then [s[0]] else "") + WordChars(s[1..])
  }

  lemma {:induction false} WordCharsAppend(a: string, b: string)
    ensures WordChars(a + b) == WordChars(a) + WordChars(b)
  {
    if |a| > 0 {
      assert (a + b)[1..] == a[1..] + b;
      WordCharsAppend(a[1..], b);
    } else {
      assert a + b == b;
    }
  }

  lemma {:induction false} WordCharsAllSpace(s: string)
    requires AllSpace(s)
    ensures WordChars(s) == ""
  {
    if |s| > 0 {
      WordCharsAllSpace(s[1..]);
    }
  }

  lemma SplitThree(s: string, i: nat, j: nat)
    requires i <= j <= |s|
    ensures s == (s[..i] + s[i..j]) + s[j..]
  {
  }

  /** Trimming removes only white space, so it keeps every word character. */
  lemma WordCharsTrim(s: string)
    ensures WordChars(Trim(s)) == WordChars(s)
  {
    var r := Trim(s);
    var k := LeadingSpaces(s);
    var a, b := s[..k], s[k + |r|..];
    calc {
      WordChars(s);
      { SplitThree(s, k, k + |r|); }
      WordChars((a + r) + b);
      { WordCharsAppend(a + r, b); }
      WordChars(a + r) + WordChars(b);
      { WordCharsAllSpace(b); }
      WordChars(a + r);
      { WordCharsAppend(a, r); }
      WordChars(a) + WordChars(r);
      { WordCharsAllSpace(a); }
      WordChars(r);
    }
  }

  /** `.replace(/\s+/g, '-')`: each maximal run of white space becomes one '-'. */
  function DashSpaces(s: string): (r: string)
    ensures forall i | 0 <= i < |r| :: !IsSpace(r[i])
    ensures forall i | 0 <= i < |r| :: r[i] == '-' || r[i] in s
  {
    if |s| == 0 then ""
    else
      var rest := DashSpaces(s[1..]);
      if IsSpace(s[0]) then
        if |s| > 1 && IsSpace(s[1]) then rest
        else "-" + rest
      else [s[0]] + rest
  }

  /** Replacing white space by hyphens keeps the word characters. */
  lemma {:induction false} DashSpacesWordChars(s: string)
    ensures WordChars(DashSpaces(s)) == WordChars(s)
  {
    if |s| > 0 {
      DashSpacesWordChars(s[1..]);
      var rest := DashSpaces(s[1..]);
      if IsSpace(s[0]) && !(|s| > 1 && IsSpace(s[1])) {
        assert ("-" + rest)[1..] == rest;
      } else if !IsSpace(s[0]) {
        assert ([s[0]] + rest)[1..] == rest;
      }
    }
  }

  /** Without white space there is nothing to replace. */
  lemma {:induction false} DashSpacesFixes(s: string)
    requires forall i | 0 <= i < |s| :: !IsSpace(s[i])
    ensures DashSpaces(s) == s
  {
    if |s| > 0 {
      DashSpacesFixes(s[1..]);
    }
  }

  /** `.replace(/[^\w\-]+/g, '')`: keeps exactly the word characters and hyphens. */
  function KeepSlugChars(s: string): (r: string)
    ensures forall i | 0 <= i < |r| :: IsWordChar(r[i]) || r[i] == '-'
    ensures forall i | 0 <= i < |r| :: r[i] in s
  {
    if |s| == 0 then ""
    else
      var rest := KeepSlugChars(s[1..]);
      if IsWordChar(s[0]) || s[0] == '-' then [s[0]] + rest else rest
  }

  lemma {:induction false} KeepSlugCharsWordChars(s: string)
    ensures WordChars(KeepSlugChars(s)) == WordChars(s)
  {
    if |s| > 0 {
      KeepSlugCharsWordChars(s[1..]);
      var rest := KeepSlugChars(s[1..]);
      if IsWordChar(s[0]) || s[0] == '-' {
        assert ([s[0]] + rest)[1..] == rest;
      }
    }
  }

  lemma {:induction false} KeepSlugCharsFixes(s: string)
    requires forall i | 0 <= i < |s| :: IsWordChar(s[i]) || s[i] == '-'
    ensures KeepSlugChars(s) == s
  {
    if |s| > 0 {
      KeepSlugCharsFixes(s[1..]);
    }
  }

  /** `.replace(/\-\-+/g, '-')`: each run of two or more hyphens becomes one. */
  function CollapseHyphens(s: string): (r: string)
    ensures NoDoubleHyphen(r)
    ensures forall i | 0 <= i < |r| :: r[i] in s
    ensures |s| > 0 ==> |r| > 0 && r[0] == s[0]
  {
    if |s| == 0 then ""
    else
      var rest := CollapseHyphens(s[1..]);
      if s[0] == '-' && |s| > 1 && s[1] == '-' then rest
      else
        assert ([s[0]] + rest)[1..] == rest;
        [s[0]] + rest
  }

  lemma {:induction false} CollapseHyphensWordChars(s: string)
    ensures WordChars(CollapseHyphens(s)) == WordChars(s)
  {
    if |s| > 0 {
      CollapseHyphensWordChars(s[1..]);
      var rest := CollapseHyphens(s[1..]);
      if !(s[0] == '-' && |s| > 1 && s[1] == '-') {
        assert ([s[0]] + rest)[1..] == rest;
      }
    }
  }

  lemma {:induction false} CollapseHyphensFixes(s: string)
    requires NoDoubleHyphen(s)
    ensures CollapseHyphens(s) == s
  {
    if |s| > 0 {
      CollapseHyphensFixes(s[1..]);
    }
  }

  /** `slugify(text)`. The result is a well-formed slug. */
  function Slugify(text: string): (r: string)
    ensures IsSlug(r)
  {
    var low := LowerStr(text);
    var t := Trim(low);
    TrimNoUpper(low);
    PipelineSlugChars(t);
    CollapseHyphens(KeepSlugChars(DashSpaces(t)))
  }

  /** Slugifying keeps the word characters of the lower-cased input, in order. */
  lemma SlugifyKeepsWordChars(text: string)
    ensures WordChars(Slugify(text)) == WordChars(LowerStr(text))
  {
    var low := LowerStr(text);
    var t := Trim(low);
    var d := DashSpaces(t);
    var k := KeepSlugChars(d);
    WordCharsTrim(low);
    DashSpacesWordChars(t);
    KeepSlugCharsWordChars(d);
    CollapseHyphensWordChars(k);
  }

  /** Trimming a string without capitals leaves none. */
  lemma TrimNoUpper(s: string)
    requires NoUpper(s)
    ensures NoUpper(Trim(s))
  {
    var t := Trim(s);
    forall i | 0 <= i < |t| ensures !IsUpper(t[i]) {
      assert t[i] == s[LeadingSpaces(s) + i];
    }
  }

  /** After lower-casing, the last three steps leave only slug characters. */
  lemma PipelineSlugChars(t: string)
    requires NoUpper(t)
    ensures var r := CollapseHyphens(KeepSlugChars(DashSpaces(t)));
      forall i | 0 <= i < |r| :: IsSlugChar(r[i])
  {
    var d := DashSpaces(t);
    var k := KeepSlugChars(d);
    var r := CollapseHyphens(k);
    forall i | 0 <= i < |r| ensures IsSlugChar(r[i]) {
      assert r[i] in k;
      assert r[i] in d;
      assert IsWordChar(r[i]) || r[i] == '-';
      if r[i] != '-' {
        assert r[i] in t;
      }
    }
  }

  /** A well-formed slug is left as it is. */
  lemma SlugifyFixesSlugs(s: string)
    requires IsSlug(s)
    ensures Slugify(s) == s
  {
    assert forall i | 0 <= i < |s| :: !IsSpace(s[i]) && !IsUpper(s[i]) && (IsWordChar(s[i]) || s[i] == '-') by {
      forall i | 0 <= i < |s| ensures !IsSpace(s[i]) && !IsUpper(s[i]) && (IsWordChar(s[i]) || s[i] == '-') {
        assert IsSlugChar(s[i]);
      }
    }
    LowerStrNoUpper(s);
    TrimOfTrimmed(s);
    DashSpacesFixes(s);
    KeepSlugCharsFixes(s);
    CollapseHyphensFixes(s);
  }

  /** `slugify(slugify(x)) == slugify(x)`. */
  lemma SlugifyIdempotent(text: string)
    ensures Slugify(Slugify(text)) == Slugify(text)
  {
    SlugifyFixesSlugs(Slugify(text));
  }
}

=== FILE: store.dfy ===
/**
 * The User collection, as the routes use it: `findOne` and `findById`
 * (first match in natural order), `save` on a new or loaded document
 * (which runs the pre-save hook) and `findByIdAndUpdate` (which does not).
 */
module Store {
  import opened Wrappers
  import opened Users
  import Text

  /** No two records share an id. */
  predicate UniqueIds(s: seq<User>) {
    forall i, j | 0 <= i < j < |s| :: s[i].id != s[j].id
  }

  /** `findOne(filter)`: the first record, in natural order, that matches. */
  function FindFirst(s: seq<User>, matches: User -> bool): (r: Option<User>)
    ensures r.None? <==> forall i | 0 <= i < |s| :: !matches(s[i])
    ensures r.Some? ==> matches(r.value)
    ensures r.Some? ==> exists i | 0 <= i < |s| :: s[i] == r.value && forall j | 0 <= j < i :: !matches(s[j])
  {
    if |s| == 0 then None
    else if matches(s[0]) then Some(s[0])
    else
      var r := FindFirst(s[1..], matches);
      assert r.Some? ==> exists i | 1 <= i < |s| :: s[i] == r.value && forall j | 0 <= j < i :: !matches(s[j]) by {
        if r.Some? {
          var i :| 0 <= i < |s| - 1 && s[1..][i] == r.value && forall j | 0 <= j < i :: !matches(s[1..][j]);
          assert s[i + 1] == r.value;
          assert forall j | 0 <= j < i + 1 :: !matches(s[j]) by {
            forall j | 0 <= j < i + 1 ensures !matches(s[j]) {
              if j > 0 { assert s[j] == s[1..][j - 1]; }
            }
          }
        }
      }
      r
  }

  /** `findById(id)`. */
  function FindById(s: seq<User>, id: Id): (r: Option<User>)
    ensures r.Some? ==> r.value in s && r.value.id == id
    ensures r.None? <==> forall i | 0 <= i < |s| :: s[i].id != id
  {
    FindFirst(s, (u: User) => u.id == id)
  }

  /**
   * `findOne({ email })`: the schema's lower-case setter also applies to the
   * query value, so the lookup is by the lower-cased address.
   */
  function FindByEmail(s: seq<User>, email: string): (r: Option<User>)
    ensures r.Some? ==> r.value in s && r.value.email == Text.LowerStr(email)
    ensures r.None? <==> forall i | 0 <= i < |s| :: s[i].email != Text.LowerStr(email)
  {
    FindFirst(s, (u: User) => u.email == Text.LowerStr(email))
  }

  /** `findOne({ googleId | twitterId | githubId: pid })`. */
  function FindByProvider(s: seq<User>, p: Provider, pid: string): (r: Option<User>)
    ensures r.Some? ==> r.value in s && ProviderId(r.value, p) == Some(pid)
    ensures r.None? <==> forall i | 0 <= i < |s| :: ProviderId(s[i], p) != Some(pid)
    ensures r.Some? ==> exists i | 0 <= i < |s| :: s[i] == r.value && forall j | 0 <= j < i :: ProviderId(s[j], p) != Some(pid)
  {
    FindFirst(s, (u: User) => ProviderId(u, p) == Some(pid))
  }

  /** The provider lookup yields the record at the first matching position. */
  lemma FindByProviderAt(s: seq<User>, p: Provider, pid: string, i: nat)
    requires i < |s| && ProviderId(s[i], p) == Some(pid)
    requires forall j | 0 <= j < i :: ProviderId(s[j], p) != Some(pid)
    ensures FindByProvider(s, p, pid) == Some(s[i])
  {
    var r := FindByProvider(s, p, pid);
    var k :| 0 <= k < |s| && s[k] == r.value && forall j | 0 <= j < k :: ProviderId(s[j], p) != Some(pid);
    assert !(k < i) && !(i < k);
  }

  /** With unique ids, `findById` yields exactly the record carrying that id. */
  lemma FindByIdUnique(s: seq<User>, u: User)
    requires UniqueIds(s) && u in s
    ensures FindById(s, u.id) == Some(u)
  {
    var r := FindById(s, u.id);
    var i :| 0 <= i < |s| && s[i] == r.value && forall j | 0 <= j < i :: s[j].id != u.id;
    var k :| 0 <= k < |s| && s[k] == u;
  }

  /** Overwriting one record with one carrying the same id keeps ids unique. */
  lemma UniqueIdsUpdate(s: seq<User>, i: nat, v: User)
    requires UniqueIds(s) && i < |s| && s[i].id == v.id
    ensures UniqueIds(s[i := v])
  {
    assert forall j | 0 <= j < |s| :: s[i := v][j].id == s[j].id;
  }

  /** Every record with id `id` replaced by `u`; the rest untouched. */
  function ReplaceById(s: seq<User>, id: Id, u: User): (r: seq<User>)
    ensures |r| == |s|
    ensures forall i | 0 <= i < |s| :: r[i] == (if s[i].id == id then u else s[i])
  {
    seq(|s|, i requires 0 <= i < |s| => if s[i].id == id then u else s[i])
  }

  /**
   * `doc.save()` on a freshly built document: the pre-save hook hashes its
   * password. `Failure` when the store is down or the id is already taken.
   */
  function Insert(s: seq<User>, u: User, up: bool): (r: Result<seq<User>, string>)
    ensures r.Success? <==> up && FindById(s, u.id).None?
    ensures r.Success? ==> r.value == s + [PreSave(u, true)]
    ensures r.Success? && UniqueIds(s) ==> UniqueIds(r.value)
  {
    if !up then Failure("store unavailable")
    else if FindById(s, u.id).Some? then Failure("duplicate key")
    else Success(s + [PreSave(u, true)])
  }

  /**
   * `doc.save()` on a loaded and changed document: the pre-save hook sees
   * the password as modified exactly when it differs from the stored one.
   */
  function Save(s: seq<User>, u: User): (r: seq<User>)
    ensures |r| == |s|
    ensures forall i | 0 <= i < |s| && s[i].id != u.id :: r[i] == s[i]
    ensures UniqueIds(s) ==> forall i | 0 <= i < |s| && s[i].id == u.id && s[i].password == u.password :: r[i] == u
    ensures UniqueIds(s) ==> UniqueIds(r)
  {
    match FindById(s, u.id)
    case None => s
    case Some(stored) =>
      assert UniqueIds(s) ==> forall i | 0 <= i < |s| && s[i].id == u.id :: s[i] == stored by {
        if UniqueIds(s) {
          forall i | 0 <= i < |s| && s[i].id == u.id ensures s[i] == stored {
            FindByIdUnique(s, s[i]);
          }
        }
      }
      ReplaceById(s, u.id, PreSave(u, stored.password != u.password))
  }

  /** Saving a record whose password is unchanged writes it in its own slot. */
  lemma SaveAt(s: seq<User>, i: nat, u: User)
    requires UniqueIds(s) && i < |s| && s[i].id == u.id && s[i].password == u.password
    ensures Save(s, u) == s[i := u]
  {
    var r := Save(s, u);
    forall j | 0 <= j < |s| ensures r[j] == s[i := u][j] {
      if j != i {
        assert s[j].id != u.id;
      }
    }
  }
}

=== FILE: text.dfy ===
/**
 * ASCII string helpers standing in for the JavaScript built-ins the routes use:
 * `toLowerCase`, `trim`, the `\s` and `\w` character classes, `split(',')`
 * and the decimal rendering of a number by `toString()`.
 */
module Text {

  /** JavaScript white space (`\s`, and what `trim` removes), ASCII part. */
  predicate IsSpace(c: char) {
    c == ' ' || c == '\t' || c == '\n' || c == '\r' || c == '\U{000B}' || c == '\U{000C}'
  }

  predicate IsUpper(c: char) { 'A' <= c <= 'Z' }

  predicate IsLower(c: char) { 'a' <= c <= 'z' }

  predicate IsDigit(c: char) { '0' <= c <= '9' }

  /** JavaScript's `\w`: `[A-Za-z0-9_]`. */
  predicate IsWordChar(c: char) { IsUpper(c) || IsLower(c) || IsDigit(c) || c == '_' }

  /** No upper-case letter anywhere in `s`. */
  predicate NoUpper(s: string) { forall i | 0 <= i < |s| :: !IsUpper(s[i]) }

  /** Every character of `s` is white space. */
  predicate AllSpace(s: string) { forall i | 0 <= i < |s| :: IsSpace(s[i]) }

  /** Neither end of `s` is white space. */
  predicate Trimmed(s: string) { |s| > 0 ==> !IsSpace(s[0]) && !IsSpace(s[|s| - 1]) }

  /** `toLowerCase` on one character (ASCII letters only). */
  function Lower(c: char): (r: char)
    ensures !IsUpper(r)
    ensures IsUpper(c) ==> IsLower(r) && r as int == c as int + 32
    ensures !IsUpper(c) ==> r == c
  {
    if IsUpper(c) then (c as int + 32) as char else c
  }

  /** `toLowerCase` on a string. */
  function LowerStr(s: string): (r: string)
    ensures |r| == |s| && NoUpper(r)
    ensures forall i | 0 <= i < |s| :: r[i] == Lower(s[i])
  {
    seq(|s|, i requires 0 <= i < |s| => Lower(s[i]))
  }

  /** Lower-casing a string that has no upper-case letter changes nothing. */
  lemma LowerStrNoUpper(s: string)
    requires NoUpper(s)
    ensures LowerStr(s) == s
  {
  }

  /** Lower-casing is idempotent. */
  lemma LowerStrIdempotent(s: string)
    ensures LowerStr(LowerStr(s)) == LowerStr(s)
  {
    LowerStrNoUpper(LowerStr(s));
  }

  /** The number of white-space characters `s` starts with. */
  function LeadingSpaces(s: string): (n: nat)
    ensures n <= |s| && AllSpace(s[..n])
    ensures n < |s| ==> !IsSpace(s[n])
  {
    if |s| > 0 && IsSpace(s[0]) then 1 + LeadingSpaces(s[1..]) else 0
  }

  /** Drops the leading white space. */
  function TrimStart(s: string): (r: string)
    ensures r == s[LeadingSpaces(s)..]
  {
    if |s| > 0 && IsSpace(s[0]) then TrimStart(s[1..]) else s
  }

  /** Drops the trailing white space. */
  function TrimEnd(s: string): (r: string)
    ensures |r| <= |s| && r == s[..|r|]
    ensures |r| > 0 ==> !IsSpace(r[|r| - 1])
    ensures AllSpace(s[|r|..])
  {
    if |s| > 0 && IsSpace(s[|s| - 1]) then TrimEnd(s[..|s| - 1]) else s
  }

  /**
   * `String.prototype.trim`: the result is the infix of `s` left after
   * removing white space, and only white space, from both ends.
   */
  function Trim(s: string): (r: string)
    ensures Trimmed(r)
    ensures LeadingSpaces(s) + |r| <= |s|
    ensures r == s[LeadingSpaces(s)..LeadingSpaces(s) + |r|]
    ensures AllSpace(s[LeadingSpaces(s) + |r|..])
  {
    var k := LeadingSpaces(s);
    var a := TrimStart(s);
    var r := TrimEnd(a);
    assert s[k + |r|..] == a[|r|..];
    r
  }

  /** A string already trimmed is its own trim. */
  lemma TrimOfTrimmed(s: string)
    requires Trimmed(s)
    ensures Trim(s) == s
  {
  }

  /** Trimming is idempotent. */
  lemma TrimIdempotent(s: string)
    ensures Trim(Trim(s)) == Trim(s)
  {
    TrimOfTrimmed(Trim(s));
  }

  /** `s.split(sep)`: the maximal `sep`-free pieces, empty pieces kept. */
  function Split(s: string, sep: char): (r: seq<string>)
    ensures |r| >= 1
    ensures forall i | 0 <= i < |r| :: sep !in r[i]
  {
    if |s| == 0 then [""]
    else
      var rest := Split(s[1..], sep);
      if s[0] == sep then [""] + rest
      else [[s[0]] + rest[0]] + rest[1..]
  }

  /** `parts.join(sep)`. */
  function Join(parts: seq<string>, sep: char): string
    requires |parts| >= 1
  {
    if |parts| == 1 then parts[0] else parts[0] + [sep] + Join(parts[1..], sep)
  }

  /** Joining the pieces of a split gives back the original string. */
  lemma {:induction false} JoinSplit(s: string, sep: char)
    ensures Join(Split(s, sep), sep) == s
  {
    if |s| > 0 {
      var rest := Split(s[1..], sep);
      JoinSplit(s[1..], sep);
      assert s == [s[0]] + s[1..];
      if s[0] == sep {
        assert ([""] + rest)[1..] == rest;
      } else if |rest| == 1 {
        assert Join(Split(s, sep), sep) == [s[0]] + rest[0];
      } else {
        var parts := [[s[0]] + rest[0]] + rest[1..];
        assert parts[1..] == rest[1..];
        assert Join(rest, sep) == rest[0] + [sep] + Join(rest[1..], sep);
        calc {
          Join(parts, sep);
          ([s[0]] + rest[0]) + [sep] + Join(rest[1..], sep);
          [s[0]] + (rest[0] + [sep] + Join(rest[1..], sep));
        }
      }
    }
  }

  /** Splitting a join of `sep`-free pieces gives back the pieces. */
  lemma {:induction false} SplitJoin(parts: seq<string>, sep: char)
    requires |parts| >= 1
    requires forall i | 0 <= i < |parts| :: sep !in parts[i]
    ensures Split(Join(parts, sep), sep) == parts
  {
    if |parts| == 1 {
      SplitFree(parts[0], sep);
    } else {
      var tail := Join(parts[1..], sep);
      SplitJoin(parts[1..], sep);
      SplitPrefix(parts[0], tail, sep);
      assert Join(parts, sep) == parts[0] + ([sep] + tail);
    }
  }

  /** A string without `sep` splits into itself alone. */
  lemma {:induction false} SplitFree(s: string, sep: char)
    requires sep !in s
    ensures Split(s, sep) == [s]
  {
    if |s| > 0 {
      assert s[0] != sep && sep !in s[1..];
      SplitFree(s[1..], sep);
      assert [s[0]] + s[1..] == s;
    }
  }

  /** Splitting `w + sep + t`, with `w` free of `sep`, yields `w` then the pieces of `t`. */
  lemma {:induction false} SplitPrefix(w: string, t: string, sep: char)
    requires sep !in w
    ensures Split(w + ([sep] + t), sep) == [w] + Split(t, sep)
  {
    if |w| > 0 {
      assert (w + ([sep] + t))[1..] == w[1..] + ([sep] + t);
      SplitPrefix(w[1..], t, sep);
      assert [w[0]] + w[1..] == w;
    } else {
      assert w + ([sep] + t) == [sep] + t;
      assert ([sep] + t)[1..] == t;
    }
  }

  function Pow10(k: nat): (r: nat)
    ensures r >= 1
  {
    if k == 0 then 1 else 10 * Pow10(k - 1)
  }

  function Digit(d: nat): (c: char)
    requires d < 10
    ensures IsDigit(c)
  {
    ('0' as int + d) as char
  }

  function DigitValue(c: char): (d: nat)
    requires IsDigit(c)
    ensures d < 10
  {
    c as int - '0' as int
  }

  predicate AllDigits(s: string) { forall i | 0 <= i < |s| :: IsDigit(s[i]) }

  /** `n.toString()` for a natural number: its decimal digits, most significant first. */
  function Decimal(n: nat): (r: string)
    ensures |r| >= 1 && AllDigits(r)
  {
    if n < 10 then [Digit(n)] else Decimal(n / 10) + [Digit(n % 10)]
  }

  /** The value of a string of decimal digits. */
  function ParseDecimal(s: string): nat
    requires AllDigits(s)
  {
    if |s| == 0 then 0 else 10 * ParseDecimal(s[..|s| - 1]) + DigitValue(s[|s| - 1])
  }

  /** Reading back a rendered number gives the number. */
  lemma {:induction false} DecimalRoundTrip(n: nat)
    ensures ParseDecimal(Decimal(n)) == n
  {
    if n >= 10 {
      DecimalRoundTrip(n / 10);
      var s := Decimal(n);
      assert s[..|s| - 1] == Decimal(n / 10);
    }
  }

  /** A number with exactly `k` digits renders as `k` characters. */
  lemma {:induction false} DecimalLength(n: nat, k: nat)
    requires k >= 1 && Pow10(k - 1) <= n < Pow10(k)
    ensures |Decimal(n)| == k
  {
    if k > 1 {
      assert Pow10(k - 1) == 10 * Pow10(k - 2);
      assert Pow10(k) == 10 * Pow10(k - 1);
      DecimalLength(n / 10, k - 1);
    }
  }

  /** Rendering is injective. */
  lemma DecimalInjective(m: nat, n: nat)
    requires Decimal(m) == Decimal(n)
    ensures m == n
  {
    DecimalRoundTrip(m);
    DecimalRoundTrip(n);
  }
}

=== FILE: users.dfy ===
/**
 * The User record of models/User.js: its fields, the schema's defaults and
 * setters, the pre-save password hook and `comparePassword`.
 * bcrypt is replaced by `Hash`, a deterministic injective stand-in.
 */
module Users {
  import opened Wrappers
  import Text

  /** A document id, compared as its string form. */
  type Id = string

  predicate IsHexDigit(c: char) { '0' <= c <= '9' || 'a' <= c <= 'f' || 'A' <= c <= 'F' }

  /** `ObjectId.isValid` on a string: exactly 24 hexadecimal digits. */
  predicate IsObjectId(s: string) {
    |s| == 24 && forall i | 0 <= i < |s| :: IsHexDigit(s[i])
  }

  /**
   * The cast Mongoose applies to an id before it queries or stores it: a
   * valid id becomes the ObjectId it spells, whose string form has
   * lower-case digits; anything else throws a CastError (None).
   */
  function Cast(s: string): (r: Option<Id>)
    ensures r.Some? <==> IsObjectId(s)
    ensures r.Some? ==> IsObjectId(r.value) && Text.NoUpper(r.value)
    ensures r.Some? ==> forall i | 0 <= i < |s| :: r.value[i] == Text.Lower(s[i])
  {
    if IsObjectId(s) then Some(Text.LowerStr(s)) else None
  }

  /** An id already in the ObjectId's own string form casts to itself. */
  lemma CastCanonical(s: string)
    requires IsObjectId(s) && Text.NoUpper(s)
    ensures Cast(s) == Some(s)
  {
    Text.LowerStrNoUpper(s);
  }

  /** Casting a cast id changes nothing. */
  lemma CastIdempotent(s: string)
    requires Cast(s).Some?
    ensures Cast(Cast(s).value) == Cast(s)
  {
    CastCanonical(Cast(s).value);
  }

  /** An id written with an upper-case digit is not its own cast form. */
  lemma {:induction false} CastChangesUpper(s: string)
    requires IsObjectId(s) && !Text.NoUpper(s)
    ensures Cast(s).value != s
  {
    var k :| 0 <= k < |s| && Text.IsUpper(s[k]);
    assert Cast(s).value[k] == Text.Lower(s[k]);
  }

  /** The message of the CastError a failed cast for `model` throws. */
  function CastErrorMessage(s: string, model: string): string {
    "Cast to ObjectId failed for value \"" + s + "\" (type string) at path \"_id\" for model \"" + model + "\""
  }

  /** The federated identity providers with an id field on the record. */
  datatype Provider = Google | Twitter | GitHub

  datatype User = User(
    id: Id,
    name: string,
    email: string,
    password: Option<string>,
    profilePic: string,
    googleId: Option<string>,
    facebookId: Option<string>,
    twitterId: Option<string>,
    githubId: Option<string>,
    isAdmin: bool,
    bookmarks: seq<Id>,
    role: string,
    status: string,
    emailVerified: bool,
    verificationCode: Option<string>,
    verificationCodeExpires: Option<int>)

  const DefaultProfilePic := "/images/default-user.png"

  /** The `role` enum of the schema. */
  const Roles: set<string> := {"Admin", "Moderator", "User"}

  /** The `status` enum of the schema. */
  const Statuses: set<string> := {"active", "blocked", "pending"}

  /** JavaScript truthiness of an optional string: present and non-empty. */
  predicate Truthy(o: Option<string>) { o.Some? && o.value != "" }

  /** The provider id field of `u` for provider `p`. */
  function ProviderId(u: User, p: Provider): Option<string> {
    match p
    case Google => u.googleId
    case Twitter => u.twitterId
    case GitHub => u.githubId
  }

  /** The fields a `new User({...})` or `User.create({...})` call supplies. */
  datatype Fields = Fields(
    name: string,
    email: string,
    password: Option<string>,
    profilePic: Option<string>,
    provider: Option<(Provider, string)>,
    emailVerified: bool,
    verificationCode: Option<string>,
    verificationCodeExpires: Option<int>)

  /**
   * The document the schema builds from `f`: `name` trimmed, `email`
   * lower-cased, and every field `f` does not supply at its default.
   */
  function NewUser(id: Id, f: Fields): (u: User)
    ensures u.id == id && u.email == Text.LowerStr(f.email) && u.name == Text.Trim(f.name)
    ensures u.password == f.password && u.emailVerified == f.emailVerified
    ensures u.verificationCode == f.verificationCode && u.verificationCodeExpires == f.verificationCodeExpires
    ensures f.profilePic.None? ==> u.profilePic == DefaultProfilePic
    ensures f.profilePic.Some? ==> u.profilePic == f.profilePic.value
    ensures forall p: Provider :: ProviderId(u, p) == (if f.provider.Some? && f.provider.value.0 == p then Some(f.provider.value.1) else None)
    ensures u.facebookId.None? && !u.isAdmin && u.bookmarks == []
    ensures u.role == "User" && u.status == "active"
  {
    var pid := (p: Provider) => if f.provider.Some? && f.provider.value.0 == p then Some(f.provider.value.1) else None;
    User(id, Text.Trim(f.name), Text.LowerStr(f.email), f.password,
         f.profilePic.GetOr(DefaultProfilePic),
         pid(Google), None, pid(Twitter), pid(GitHub),
         false, [], "User", "active",
         f.emailVerified, f.verificationCode, f.verificationCodeExpires)
  }

  /** Every new record satisfies the schema's enums and stores its email in lower case. */
  lemma NewUserWellFormed(id: Id, f: Fields)
    ensures NewUser(id, f).role in Roles && NewUser(id, f).status in Statuses
    ensures Text.NoUpper(NewUser(id, f).email)
  {
  }

  const HashPrefix := "$2b$10$"

  /** Stand-in for `bcrypt.hash`: deterministic, injective, and never its own input. */
  function Hash(plain: string): (h: string)
    ensures |h| > |plain|
  {
    HashPrefix + plain
  }

  lemma HashInjective(a: string, b: string)
    requires Hash(a) == Hash(b)
    ensures a == b
  {
    assert a == Hash(a)[|HashPrefix|..];
  }

  /**
   * The pre-save hook: when the password is present, non-empty and modified,
   * it is replaced by its hash; otherwise the record is saved as it is.
   */
  function PreSave(u: User, passwordModified: bool): (r: User)
    ensures r.(password := u.password) == u
    ensures !Truthy(u.password) || !passwordModified ==> r == u
    ensures Truthy(u.password) && passwordModified ==> r.password.Some? && r.password != u.password
  {
    if !Truthy(u.password) || !passwordModified then u
    else u.(password := Some(Hash(u.password.value)))
  }

  /**
   * `comparePassword`: `bcrypt.compare(candidate, this.password)`. It throws
   * (modelled as `None`) when the record has no password at all.
   */
  function ComparePassword(u: User, candidate: string): (r: Option<bool>)
    ensures r.None? <==> u.password.None?
  {
    if u.password.None? then None else Some(Hash(candidate) == u.password.value)
  }

  /**
   * Saving a record whose password was just set to `p` makes `comparePassword`
   * accept exactly `p`, and accept nothing when `p` is empty (it is stored
   * unhashed, and no hash is empty).
   */
  lemma {:induction false} ComparePasswordAfterSave(u: User, p: string, candidate: string)
    requires u.password == Some(p)
    ensures p != "" ==> ComparePassword(PreSave(u, true), candidate) == Some(candidate == p)
    ensures p == "" ==> ComparePassword(PreSave(u, true), candidate) == Some(false)
  {
    if p != "" && Hash(candidate) == Hash(p) {
      HashInjective(candidate, p);
    }
  }
}

=== FILE: wrappers.dfy ===
/** Optional values and results shared by every module of the model. */
module Wrappers {

  /** A value that may be absent: a JavaScript `null`/`undefined` field. */
  datatype Option<+T> = None | Some(value: T) {

    /** The value, or `default` when absent. */
    function GetOr(default: T): T {
      match this
      case Some(v) => v
      case None => default
    }
  }

  /** The outcome of a store call that can fail. */
  datatype Result<+R, +E> = Success(value: R) | Failure(error: E)
}
